=== FILE: README.md ===
# seo-snake crawler core in Dafny

This project models the decision logic of the seo-snake SEO crawler. It covers three pieces.

- **The asynchronous page crawler** (`crawler_async.py`):
  - the robots.txt evaluator `check_robots`: how it parses lines into the wildcard group's allow and disallow prefixes, and how it decides by longest literal prefix;
  - `check_noindex`, which gives the index-ability verdict from the `X-Robots-Tag` header and the robots `<meta>`;
  - the priority order of `detect_cms`;
  - the retry schedule of `fetch`;
  - the scheme normalisation and error record of `worker`;
  - the positional result order of `crawl`.
- **The domain spider** (`crawler_spider.py`):
  - `normalize_domain`, `strip_www` and `is_valid_link`;
  - the acceptance rule of its `fetch`;
  - the frontier loop of `crawl_domain` over `visited`, `to_visit` and the internal URLs, with its page budget.
- **The sitemap loader** (`sitemap_loader.py`):
  - `is_html_url`;
  - the retry loop of `_fetch_url`, which retries only connection and timeout errors;
  - the filter in `load_sitemap`.

The network is a function from a URL and a 0-based attempt index to an outcome. The same holds for the HTML/XML parser, `urlparse`, `unquote`, `urljoin`, `resolve_redirect` and gzip: each is a function-valued parameter. Pauses are counted in tenths of a second. The exceptions the crawler's own code raises and does not catch are `Err` results, and so is the `raise None` of `fetch` with `retries <= 0`. Two such exceptions propagate through `worker` and `crawl`:
- the `IndexError` of a user-agent line without ':';
- the `IndexError` of a whitespace-only generator.

The modules follow the program:

| module | file | contents |
|---|---|---|
| `Results` | `results.dfy` | `Option`, `Result` |
| `Strings` | `strings.dfy` | the `str` operations the code uses |
| `Http` | `http.dfy` | responses, attempts, case-insensitive header lookup |
| `Fetcher` | `fetcher.dfy` | `fetch` |
| `Robots` | `robots.dfy` | `check_robots` |
| `Analyzer` | `analyzer.dfy` | `check_noindex`, `detect_cms`, `parse_page` |
| `Pipeline` | `pipeline.dfy` | `worker`, `crawl` |
| `Spider` | `spider.dfy` | `crawler_spider.py` |
| `Sitemap` | `sitemap.dfy` | `sitemap_loader.py` |

Where the code and RFC 9309, or the code and its own names, part ways, the model follows the code:
- **User-agent lines.** Every `User-agent` line switches collection on or off, and a value counts as the wildcard when it contains `*` anywhere. This differs from section 2.2.1 of RFC 9309.
- **`is_html_url`.** A path ending in `#` counts as HTML. The extension is taken after the last `.` anywhere in the path, directories included, so "/v1.2/intro" is not HTML (`Sitemap.DottedDirectoryIsNotHtml`).
- **`normalize_domain`.** It only tests for the prefix "http", so a domain such as "httpbin.org" gets no "https://" in front.

One point where the code agrees with RFC 9309: equal-length matches in the robots verdict favour `Allowed`, as section 2.2.2 of RFC 9309 asks.

## Model

| member | source | states |
|---|---|---|
| Fetcher.Fetch | crawler_async.py:59-69 | The call succeeds iff some attempt below `retries` responds. It then returns the first responding attempt whatever its status, after pauses 15·(k+1) for each earlier failed attempt k. If every attempt raises, it re-raises the last exception after `retries` pauses. With `retries <= 0` it raises `None`. |
| Fetcher.FailedFetchPauses | crawler_async.py:66-69 | A failed fetch with n attempts sleeps 15·n·(n+1)/2 tenths of a second in total, including the pause after the last attempt. |
| Fetcher.LinearTotal | crawler_async.py:68 | Pauses growing by one unit per attempt sum to the arithmetic series. |
| Http.HeaderGet | crawler_async.py:104 | A header lookup ignores letter case. It finds nothing iff no header has that name, and otherwise returns the value of the first header with that name. |
| Robots.Classify | crawler_async.py:82-92 | A line is trimmed first. Empty and `#` lines are skipped. A line whose lower-cased form starts with "user-agent" is an agent line; its value is the text after the first ':', and it has none iff the line holds no ':'. Everything else is a directive: its name is the text before the first ':', lower-cased and trimmed, and its value the trimmed text after it, "" when there is no ':'. |
| Robots.ParseKinds | crawler_async.py:81-96 | The parse loop crashes iff some line is an agent line without ':', and it never collects an empty disallow value; the full group semantics are stated by Robots.ParseFollowsGroups. |
| Strings.SplitLinesRebuilds | crawler_async.py:82 | The lines of `splitlines`, each followed by its separator, rebuild the text. No line holds a break. Each separator is "\r\n" or one line-break character, except that a non-empty last line may end the text without one, and a lone "\r" is never followed by '\n'. |
| Strings.SplitLinesUnique | crawler_async.py:82 | Any decomposition of the text into lines and separators of that shape has the lines `splitlines` returns. |
| Robots.Step | crawler_async.py:86-96 | An agent line without ':' crashes. An agent line sets collection to whether its value holds `*`. Other lines keep the flag, and they add rules only while the flag is on. |
| Robots.OpenAfter | crawler_async.py:86-90 | After an agent line, collection is open iff that line's value holds `*`. Other lines leave it as it was. |
| Robots.ParseFollowsGroups | crawler_async.py:81-96 | Parsing crashes iff some agent line has no ':'. Otherwise the final flag is that of the last agent line. A prefix is collected as disallow (allow) iff a disallow (allow) directive carries it while collection is open, with an empty disallow value excluded. |
| Robots.DisallowNonEmpty | crawler_async.py:93-94 | No empty prefix enters the disallow list. |
| Robots.Longest | crawler_async.py:99-100 | The result is empty or a rule that is a prefix of the path, and no matching rule is longer. |
| Robots.Decide | crawler_async.py:98-101 | The verdict is Allowed iff every non-empty disallow prefix matching the path is matched by an allow prefix at least as long. No match, or a tie, is Allowed. |
| Robots.LongestIgnoresEmpty | crawler_async.py:99-100 | Dropping empty rules does not change the length of the longest match. |
| Robots.EmptyAllowIrrelevant | crawler_async.py:95-101 | Empty allow values are collected but never change a verdict. |
| Robots.CheckRobots | crawler_async.py:71-101 | The robots URL is `scheme://netloc/robots.txt`, fetched with two attempts. "robots.txt error" iff both attempts raise. "robots.txt not found" iff the body starts with "404" in any case, before any parsing. A crash iff parsing crashes. Otherwise the longest-prefix verdict on the decoded path, with an empty path taken as "/". |
| Analyzer.FindMeta | crawler_async.py:107 | Finds the first `<meta>` whose name is exactly the one asked for, and nothing iff there is none. |
| Analyzer.CheckNoindex | crawler_async.py:103-110 | "NOINDEX via Header" iff the header mentions noindex, whatever the meta says. Otherwise "NOINDEX via Meta" iff the robots meta mentions it. Otherwise "Indexable". |
| Analyzer.FirstMatch | crawler_async.py:37-45 | Gives the index of the first rule that matches the HTML or the URL, with no earlier rule matching. It gives none iff no rule matches. |
| Analyzer.DetectCms | crawler_async.py:32-46 | A non-empty generator content gives its first whitespace token, and crashes iff it is all whitespace. Otherwise the first signature rule in list order that is found, case-insensitively, in the HTML or the URL. Otherwise "Unbekannt". |
| Analyzer.FoldChar | crawler_async.py:44 | The part of `re.IGNORECASE`'s case folding that can match an ASCII signature character: a character differs from its folded form iff it is an ASCII capital or one of 'İ', 'ı', 'ſ' and the Kelvin sign. A capital folds to its lower-case letter, and the four specials fold to 'i', 'i', 's' and 'k'. Other letters, such as 'Ä', are left as they are (see "## Left out"). |
| Analyzer.LiteralMatches | crawler_async.py:37-44 | A signature character matches exactly itself, its ASCII capital when it is a lower-case letter, 'İ' and 'ı' when it is 'i', 'ſ' when it is 's', and the Kelvin sign when it is 'k'. |
| Analyzer.ParsePage | crawler_async.py:48-56 | Missing title and description give "", and the word count is the parser's. |
| Pipeline.NormalizeScheme | crawler_async.py:114-115 | "https://" is put in front exactly when the URL starts with neither "http://" nor "https://". |
| Pipeline.PageRun | crawler_async.py:120 | The page fetch fails iff all three attempts raise, and then with the third attempt's exception. Otherwise it gets the first response. |
| Pipeline.Worker | crawler_async.py:113-139 | The record's URL is the normalised URL. An error record with HTTP status "-" and "Error: " plus the last exception iff all attempts raise. Otherwise a page record carrying the status code of the first response. A crash only after some response. |
| Pipeline.Analyze | crawler_async.py:124-139 | A page record with the URL and the status code. A crash iff the robots check or the CMS detection crashes. |
| Pipeline.AnalyzeFields | crawler_async.py:124-139 | The record's Status is the label of `check_noindex`, its Robots Policy the verdict of `check_robots`, its CMS the result of `detect_cms`, and its title, description, H1 and word count those of `parse_page`. |
| Pipeline.Gather | crawler_async.py:150-151 | Succeeds iff every task succeeds, with the results in task order. Otherwise fails with the exception of some task. |
| Pipeline.Crawl | crawler_async.py:142-152 | One row per input URL, in input order. Row i is the worker's record for URL i and carries its normalised URL. Any worker crash ends the crawl. |
| Spider.NormalizeDomain | crawler_spider.py:11-15 | The result is lower-case, starts with "http" and never ends in "/". It is the trimmed, lower-cased input, with "https://" in front unless that starts with "http", minus trailing slashes only. |
| Spider.StripWww | crawler_spider.py:17-18 | Exactly one leading "www." is removed. The input is otherwise unchanged, and the result is always a suffix of it. |
| Spider.IsValidLink | crawler_spider.py:20-21 | False exactly for hrefs starting, case-sensitively, with "mailto:", "tel:" or "javascript:". |
| Spider.CleanLink | crawler_spider.py:69 | The result is the prefix of the joined URL before its first '#', minus trailing slashes. It holds no '#' and does not end in "/", and everything cut off up to the first '#' is slashes. |
| Spider.FetchText | crawler_spider.py:31-37 | Text only for status 200 with a content type containing "text/html". None for every other status and for every exception. |
| Spider.Enqueue | crawler_spider.py:64-72 | Adds only unvisited links on the base host discovered on the page. Adds nothing once visited plus pending reach the budget, and never passes the budget. While the budget still has room afterwards, every such link is visited or pending. Which links win when the budget fills part-way is stated by Spider.EnqueueInOrder. |
| Spider.EnqueueInOrder | crawler_spider.py:64-72 | The hrefs are taken in document order: an eligible, unvisited link of href i that is not added was cut off because the links added from the hrefs before i had already filled the budget. |
| Spider.Begin | crawler_spider.py:40-45 | The exact host is the host of the resolved, normalised start URL, the base host is its www-stripped form, and the seed page is `scheme://host` of the resolved URL. |
| Spider.Visit | crawler_spider.py:53-72 | One pass adds the popped page to visited, fetches it unless it was visited already, keeps every other pending page, and records the page as internal exactly when it is new, expanded and on the exact host; what it adds to the pending set is stated by Spider.VisitShape. |
| Spider.VisitShape | crawler_spider.py:53-72 | One pass moves the popped page to visited and fetched, and records it when it is expanded and on the exact host. The pages it adds to the pending set are unvisited links followed from it, and all of them are added while the budget has room. |
| Spider.BoundedStep | crawler_spider.py:52-57 | A pass keeps visited and pending disjoint and within max(max_urls, 1), never visits more than max_urls pages, and fetches no page twice. |
| Spider.RecordedStep | crawler_spider.py:58-62 | The internal URLs stay exactly the visited, expanded pages on the exact host. |
| Spider.TracedStep | crawler_spider.py:64-72 | Every fetched page after the seed, and every pending page, is linked from a page fetched before it. |
| Spider.CompleteStep | crawler_spider.py:64-72 | While the budget has room, every link followed from a visited page is visited or pending. |
| Spider.VisitKeeps | crawler_spider.py:52-72 | One pass keeps all four invariants and visits exactly one more page. |
| Spider.Explore | crawler_spider.py:52-72 | The loop terminates with the invariants holding, when nothing is pending or max_urls pages are visited. |
| Spider.Finished | crawler_spider.py:52 | No page is fetched when max_urls <= 0, and otherwise between 1 and max_urls pages. If fewer than max_urls were fetched, every followed link of a fetched page was fetched. |
| Spider.CrawlDomain | crawler_spider.py:39-73 | The result is strictly sorted and holds exactly the fetched, expanded pages on the exact host. Pages are fetched once each, within the budget, starting at the domain root, each linked from an earlier one, and closed under links while under budget. |
| Spider.SortUrls | crawler_spider.py:73 | A strictly sorted sequence holding exactly the set's URLs. |
| Sitemap.Extension | sitemap_loader.py:23 | "" iff the path has no '.'. Otherwise the suffix of the path from its last '.'. |
| Sitemap.ExtensionOfSuffix | sitemap_loader.py:23 | A suffix with one leading '.' and no other '.' is the extension. |
| Sitemap.ExtensionIsHtml | sitemap_loader.py:23-24 | The extension is in the HTML list iff the path has no '.' or ends in ".html", ".htm", ".php", ".asp" or ".aspx". |
| Sitemap.IsHtmlUrl | sitemap_loader.py:19-24 | True iff the lower-cased path is empty, ends in "/" or "#", has no '.', or ends in one of the HTML extensions. |
| Sitemap.DottedDirectoryIsNotHtml | sitemap_loader.py:23-24 | A path with a '.' in a directory name and none after it is not HTML. |
| Sitemap.FetchUrl | sitemap_loader.py:26-38 | Returns None iff retries <= 0. Otherwise: only connection and timeout errors are retried, with a pause backoff·(k+1) after failed attempt k but none after the last; an error status raises HTTPError at once; any other exception propagates at once; the content comes from the first successful response. |
| Sitemap.ExhaustedFetchUrl | sitemap_loader.py:33-38 | When every attempt hits a connection or timeout error, the last one is raised after retries-1 pauses summing to backoff·(retries-1)·retries/2. |
| Sitemap.KeepHtml | sitemap_loader.py:51 | The result is a subsequence of the input and every element passes `is_html_url`. |
| Sitemap.KeepHtmlCounts | sitemap_loader.py:51 | Each HTML URL is kept as often as it occurs, and no other URL is kept. |
| Sitemap.LoadSitemap | sitemap_loader.py:40-51 | A failed download gives []. A ".gz" download that does not decompress crashes. Otherwise the result is the order-preserving subsequence of stripped `<loc>` texts that are HTML, each kept as often as it occurs. |

## Left out

- `urlparse` and `urljoin` are modelled as total functions. In Python they raise `ValueError` on some malformed URLs, an href such as `http://[x` for instance, and nothing catches it: at crawler_async.py:72 it would end `worker` and `crawl`; at crawler_spider.py:42, on a malformed start URL from `resolve_redirect` such as `https://[x`, and at crawler_spider.py:68 and 70, it would end `crawl_domain`; and at sitemap_loader.py:20 it would end `load_sitemap`. The model does not have these crashes.
- Network I/O, timeouts, the SSL context, `resolve_redirect` and the actual sleeping are not modelled. The network is a deterministic function of the URL and the attempt index, so two workers fetching the same robots.txt see the same outcomes.
- Concurrency is not modelled: the semaphore, connector limits and gather timing. Workers run in sequence, so when several workers crash, which crash surfaces is only "some worker's".
- BeautifulSoup/lxml extraction is a parameter and not modelled: title, `<meta>`, `<h1>`, anchors, `<loc>`, and the visible-text word count of `strip_html_for_wc`. So are `urlparse`, `unquote`, `urljoin` and gzip. `urldefrag` is modelled as a cut at the first '#'.
- Response text decoding is not modelled: `text()` either yields the body or the attempt raises.
- `Strings.Lower` changes only ASCII letters, whereas Python's `str.lower` maps every cased letter. The keywords compared after `lower()` in `check_robots`, `check_noindex` and `is_html_url` contain no letter that a non-ASCII character lower-cases to, so those results are unaffected. Spider.NormalizeDomain is affected: " MÜNCHEN.DE " gives "https://münchen.de" in Python and "https://mÜnchen.de" in the model.
- Analyzer.FoldChar: non-ASCII letters other than 'İ', 'ı', 'ſ' and the Kelvin sign are not folded, although `re.IGNORECASE` folds them ('Ä' matches 'ä'). The signatures are ASCII, and `Analyzer.LiteralMatches` lists every character that can match an ASCII pattern character, so `detect_cms` is unaffected.
- The regular expressions of `detect_cms` are modelled as alternations of literal and `.` elements matched case-insensitively. That is all the five signature patterns use, so a general regex engine is not modelled.
- `progress_cb`, the CLI entry points, the DataFrame construction, dashboard.py and the unused `NON_HTML_EXT` set are not modelled.
- The status code of the robots.txt response is ignored by the code, and so by the model.
- `Sitemap.LoadSitemap` cannot see `_fetch_url` return None, because it always passes three attempts. The None path is stated only on `Sitemap.FetchUrl`.
- Analyzer.ParsePage: weaker than the source. It states only the missing-element defaults and the word count, because the values come from the parser parameter and the trimming is `Strings.Strip`.
- Spider.CrawlDomain: the pop order of `to_visit` is an arbitrary choice, so the contract holds for every order rather than for CPython's set iteration order.

=== FILE: analyzer.dfy ===
/** The page analyzer of the asynchronous crawler: the index-ability
    verdict (`check_noindex`), the CMS fingerprint (`detect_cms`) and the
    fields `parse_page` reads off a parsed document. The HTML parser itself
    is not modelled: a page is given as the `Doc` it parses to. */
module Analyzer {
  import opened Results
  import opened Strings
  import opened Http

  /** A `<meta>` element: its `name` and `content` attributes, if present. */
  datatype MetaTag = MetaTag(name: Option<string>, content: Option<string>)

  /** What the HTML parser extracts from a page: the `<meta>` elements in
      document order, the text of the first `<title>` (when it has a single
      string), the stripped text of the first `<h1>`, and the number of
      words of the visible text. */
  datatype Doc = Doc(metas: seq<MetaTag>, title: Option<string>, h1: Option<string>, words: nat)

  datatype Indexability = NoindexViaHeader | NoindexViaMeta | Indexable

  /** The `IndexError` of `split()[0]` on a generator content made of
      whitespace only; nothing in the crawler catches it. */
  datatype AnalyzerCrash = BlankGenerator

  /** The text a verdict shows in the report. */
  function IndexabilityLabel(v: Indexability): string {
    match v
    case NoindexViaHeader => "NOINDEX via Header"
    case NoindexViaMeta => "NOINDEX via Meta"
    case Indexable => "Indexable"
  }

  /** The first `<meta>` element whose name attribute is exactly `name`,
      as `soup.find("meta", attrs={"name": name})` finds it. */
  function FindMeta(metas: seq<MetaTag>, name: string): (r: Option<MetaTag>)
    ensures r.None? <==> forall i | 0 <= i < |metas| :: metas[i].name != Some(name)
    ensures r.Some? ==> exists i | 0 <= i < |metas| ::
      && metas[i] == r.value
      && metas[i].name == Some(name)
      && forall j | 0 <= j < i :: metas[j].name != Some(name)
    decreases |metas|
  {
    if |metas| == 0 then None
    else if metas[0].name == Some(name) then Some(metas[0])
    else
      var r := FindMeta(metas[1..], name);
      assert forall i | 1 <= i < |metas| :: metas[i] == metas[1..][i - 1];
      r
  }

  /** The response carries an `X-Robots-Tag` header whose first value
      contains "noindex" in any letter case. */
  predicate HeaderForbids(headers: Headers) {
    var tag := HeaderGet(headers, "X-Robots-Tag");
    tag.Some? && Contains(Lower(tag.value), "noindex")
  }

  /** The first robots `<meta>` element has a content containing
      "noindex" in any letter case; a missing content counts as "". */
  predicate MetaForbids(doc: Doc) {
    var meta := FindMeta(doc.metas, "robots");
    meta.Some? && Contains(Lower(match meta.value.content case None => [] case Some(c) => c), "noindex")
  }

  /** `check_noindex(html, headers)`: the header takes precedence over the
      meta element, whatever the meta element says. */
  function CheckNoindex(headers: Headers, doc: Doc): (v: Indexability)
    ensures v == NoindexViaHeader <==> HeaderForbids(headers)
    ensures v == NoindexViaMeta <==> !HeaderForbids(headers) && MetaForbids(doc)
    ensures v == Indexable <==> !HeaderForbids(headers) && !MetaForbids(doc)
  {
    if HeaderForbids(headers) then NoindexViaHeader
    else if MetaForbids(doc) then NoindexViaMeta
    else Indexable
  }

  // ----- CMS fingerprint -----

  /** One element of a regular expression made of literals and `.`:
      a literal matches the characters that fold to the same character as
      it, `.` any character but a newline. */
  datatype PatElem = Lit(c: char) | AnyButNewline

  type Pattern = seq<PatElem>

  /** A signature rule: the alternatives of its regular expression and
      the name reported when one of them is found. */
  datatype CmsRule = CmsRule(alternatives: seq<Pattern>, cms: string)

  function Literal(s: string): (p: Pattern)
    ensures |p| == |s| && forall k | 0 <= k < |s| :: p[k] == Lit(s[k])
  {
    seq(|s|, k requires 0 <= k < |s| => Lit(s[k]))
  }

  /** "cdn.shopify.com", whose dots are wildcards. */
  function ShopifyPattern(): Pattern {
    Literal("cdn") + [AnyButNewline] + Literal("shopify") + [AnyButNewline] + Literal("com")
  }

  /** The signature rules in priority order. */
  function CmsRules(): seq<CmsRule> {
    [ CmsRule([Literal("wp-content"), Literal("wp-includes")], "WordPress"),
      CmsRule([Literal("/administrator/")], "Joomla"),
      CmsRule([Literal("/sites/default/")], "Drupal"),
      CmsRule([Literal("/typo3conf/")], "TYPO3"),
      CmsRule([ShopifyPattern()], "Shopify") ]
  }

  /** The case folding of `re.IGNORECASE` on `str` patterns, as far as
      it reaches the ASCII letters the signatures are made of: the simple
      lower case of 'İ' (U+0130) is 'i' and of the Kelvin sign (U+212A)
      is 'k', and the regex engine also equates dotless 'ı' (U+0131) with
      'i' and long 'ſ' (U+017F) with 's'. */
  function FoldChar(t: char): (f: char)
    ensures f != t <==> 'A' <= t <= 'Z' || t in {'\U{0130}', '\U{0131}', '\U{017F}', '\U{212A}'}
    ensures 'A' <= t <= 'Z' ==> f as int == t as int + 32
    ensures t in {'\U{0130}', '\U{0131}'} ==> f == 'i'
    ensures t == '\U{017F}' ==> f == 's'
    ensures t == '\U{212A}' ==> f == 'k'
    ensures f != t ==> 'a' <= f <= 'z'
  {
    if 'A' <= t <= 'Z' then LowerChar(t)
    else if t == '\U{0130}' || t == '\U{0131}' then 'i'
    else if t == '\U{017F}' then 's'
    else if t == '\U{212A}' then 'k'
    else t
  }

  predicate ElemMatches(e: PatElem, t: char) {
    match e
    case Lit(c) => FoldChar(t) == FoldChar(c)
    case AnyButNewline => t != '\n'
  }

  predicate MatchesAt(p: Pattern, text: string, i: int) {
    0 <= i <= |text| - |p| && forall k | 0 <= k < |p| :: ElemMatches(p[k], text[i + k])
  }

  /** `re.search(p, text, re.I)` finds a match. */
  predicate Search(p: Pattern, text: string) {
    exists i | 0 <= i <= |text| - |p| :: MatchesAt(p, text, i)
  }

  /** A pattern character that is its own fold, as every character of
      the signatures is, matches itself; a lower-case ASCII letter also
      matches its capital, and 'i', 's' and 'k' also match the special
      letters that fold to them. Nothing else matches. */
  lemma LiteralMatches(c: char, t: char)
    requires FoldChar(c) == c
    ensures ElemMatches(Lit(c), t) <==>
      || t == c
      || ('a' <= c <= 'z' && t as int == c as int - 32)
      || (c == 'i' && t in {'\U{0130}', '\U{0131}'})
      || (c == 's' && t == '\U{017F}')
      || (c == 'k' && t == '\U{212A}')
  {
  }

  /** The rule's expression is found in the page's HTML or in its URL. */
  predicate RuleMatches(rule: CmsRule, html: string, url: string) {
    exists a | a in rule.alternatives :: Search(a, html) || Search(a, url)
  }

  /** The index of the first rule that matches, if any. */
  function FirstMatch(rules: seq<CmsRule>, html: string, url: string): (r: Option<nat>)
    ensures r.None? <==> forall j | 0 <= j < |rules| :: !RuleMatches(rules[j], html, url)
    ensures r.Some? ==>
      && r.value < |rules|
      && RuleMatches(rules[r.value], html, url)
      && forall j | 0 <= j < r.value :: !RuleMatches(rules[j], html, url)
    decreases |rules|
  {
    if |rules| == 0 then None
    else if RuleMatches(rules[0], html, url) then Some(0)
    else match FirstMatch(rules[1..], html, url)
      case None => None
      case Some(i) => Some(i + 1)
  }

  /** The content of the first generator `<meta>` element, when it is
      present and non-empty. */
  function Generator(doc: Doc): Option<string> {
    var gen := FindMeta(doc.metas, "generator");
    if gen.Some? && gen.value.content.Some? && gen.value.content.value != [] then gen.value.content
    else None
  }

  /** `detect_cms(html, headers, url)`: the generator's first word when a
      generator is given, else the name of the first signature rule found
      in the HTML or the URL, else "Unbekannt". */
  function DetectCms(doc: Doc, html: string, url: string): (r: Result<string, AnalyzerCrash>)
    ensures Generator(doc).Some? ==>
      (r.Err? <==> forall k | 0 <= k < |Generator(doc).value| :: IsSpace(Generator(doc).value[k]))
    ensures Generator(doc).Some? && r.Ok? ==> r == Ok(FirstToken(Generator(doc).value).value)
    ensures Generator(doc).None? ==> r.Ok?
    ensures Generator(doc).None? ==> (r.value == "Unbekannt" <==>
      forall j | 0 <= j < |CmsRules()| :: !RuleMatches(CmsRules()[j], html, url))
    ensures Generator(doc).None? && r.value != "Unbekannt" ==> exists j | 0 <= j < |CmsRules()| ::
      && r.value == CmsRules()[j].cms
      && RuleMatches(CmsRules()[j], html, url)
      && forall i | 0 <= i < j :: !RuleMatches(CmsRules()[i], html, url)
  {
    match Generator(doc)
    case Some(content) =>
      (match FirstToken(content)
       case None => Err(BlankGenerator)
       case Some(t) => Ok(t))
    case None =>
      match FirstMatch(CmsRules(), html, url)
      case None => Ok("Unbekannt")
      case Some(j) => Ok(CmsRules()[j].cms)
  }

  // ----- parse_page -----

  /** Title, meta description, first heading and word count of a page. */
  datatype PageFields = PageFields(title: string, description: string, h1: string, words: nat)

  /** `parse_page(html)`: missing elements give "", the title and the
      description are trimmed. */
  function ParsePage(doc: Doc): (f: PageFields)
    ensures doc.title.None? ==> f.title == []
    ensures FindMeta(doc.metas, "description").None? ==> f.description == []
    ensures f.words == doc.words
  {
    var title := match doc.title case None => [] case Some(t) => Strip(t);
    var meta := FindMeta(doc.metas, "description");
    var description := match meta
      case None => []
      case Some(m) => Strip(match m.content case None => [] case Some(c) => c);
    var h1 := match doc.h1 case None => [] case Some(h) => h;
    PageFields(title, description, h1, doc.words)
  }
}

=== FILE: fetcher.dfy ===
/** The page fetcher of the asynchronous crawler (`fetch` in
    crawler_async.py): up to `retries` attempts, a linearly growing pause
    after every failed attempt, and the last exception re-raised when all
    of them fail. */
module Fetcher {
  import opened Results
  import opened Http

  /** Why a fetch raised: the last attempt's exception, or the `TypeError`
      that `raise None` produces when not a single attempt was made. */
  datatype FetchFailure = Reraised(exc: Exc) | RaisedNone

  /** The outcome of one `fetch` call together with the pauses it slept,
      in tenths of a second, in the order they happened. */
  datatype FetchRun = FetchRun(outcome: Result<Response, FetchFailure>, delays: seq<nat>)

  /** The pause after the failed attempt with 0-based index `k`:
      1.5 * (k + 1) seconds. */
  function PauseAfter(k: nat): nat {
    15 * (k + 1)
  }

  /** `fetch(session, url, retries)`, where `attempt(k)` is what the
      network does on the attempt with 0-based index `k`. */
  function Fetch(attempt: nat -> Attempt, retries: int): (r: FetchRun)
    ensures r.outcome.Ok? <==> exists j | 0 <= j < retries :: attempt(j).Responded?
    ensures r.outcome.Ok? ==>
      && |r.delays| < retries
      && attempt(|r.delays|) == Responded(r.outcome.value)
      && forall j | 0 <= j < |r.delays| :: attempt(j).Raised?
    ensures r.outcome.Err? ==> |r.delays| == (if retries < 0 then 0 else retries)
    ensures r.outcome.Err? && retries <= 0 ==> r.outcome.error == RaisedNone
    ensures r.outcome.Err? && retries > 0 ==>
      attempt(retries - 1).Raised? && r.outcome.error == Reraised(attempt(retries - 1).exc)
    ensures forall j | 0 <= j < |r.delays| :: r.delays[j] == PauseAfter(j)
  {
    FetchFrom(attempt, retries, 0, None)
  }

  /** The loop of `fetch` from the attempt with index `k` on, where `last`
      is the exception of attempt `k - 1`, if any. */
  function FetchFrom(attempt: nat -> Attempt, retries: int, k: nat, last: Option<Exc>): (r: FetchRun)
    requires (k == 0 && last.None?) || (0 < k <= retries && attempt(k - 1).Raised? && last == Some(attempt(k - 1).exc))
    ensures r.outcome.Ok? <==> exists j | k <= j < retries :: attempt(j).Responded?
    ensures r.outcome.Ok? ==>
      && k + |r.delays| < retries
      && attempt(k + |r.delays|) == Responded(r.outcome.value)
      && forall j | k <= j < k + |r.delays| :: attempt(j).Raised?
    ensures r.outcome.Err? ==> |r.delays| == (if retries < k then 0 else retries - k)
    ensures r.outcome.Err? && retries <= 0 ==> r.outcome.error == RaisedNone
    ensures r.outcome.Err? && retries > 0 ==>
      attempt(retries - 1).Raised? && r.outcome.error == Reraised(attempt(retries - 1).exc)
    ensures forall j | 0 <= j < |r.delays| :: r.delays[j] == PauseAfter(k + j)
    decreases retries - k
  {
    if k >= retries then
      FetchRun(Err(if last.None? then RaisedNone else Reraised(last.value)), [])
    else match attempt(k)
      case Responded(resp) => FetchRun(Ok(resp), [])
      case Raised(e) =>
        var rest := FetchFrom(attempt, retries, k + 1, Some(e));
        FetchRun(rest.outcome, [PauseAfter(k)] + rest.delays)
  }

  /** The sum of a pause schedule. */
  function Total(ds: seq<nat>): nat
    decreases |ds|
  {
    if ds == [] then 0 else ds[0] + Total(ds[1..])
  }

  /** Pauses growing linearly by `unit` from `unit * (k + 1)` sum to
      `unit * ((k + 1) + ... + (k + n))`. */
  lemma {:induction false} LinearTotal(ds: seq<nat>, unit: nat, k: nat)
    requires forall j | 0 <= j < |ds| :: ds[j] == unit * (k + j + 1)
    ensures 2 * Total(ds) == unit * |ds| * (2 * k + |ds| + 1)
    decreases |ds|
  {
    if ds != [] {
      var n := |ds|;
      LinearTotal(ds[1..], unit, k + 1);
      assert 2 * Total(ds[1..]) == unit * ((n - 1) * (2 * k + n + 2));
      assert 2 * ds[0] == unit * (2 * k + 2);
      SumStep(unit, k, n);
    }
  }

  lemma SumStep(unit: nat, k: nat, n: nat)
    requires n >= 1
    ensures unit * (2 * k + 2) + unit * ((n - 1) * (2 * k + n + 2)) == unit * n * (2 * k + n + 1)
  {
    assert (2 * k + 2) + (n - 1) * (2 * k + n + 2) == n * (2 * k + n + 1);
  }

  /** A fetch that fails after `n` attempts has slept 1.5 * (1 + ... + n)
      seconds, the pause after the last attempt included. */
  lemma FailedFetchPauses(attempt: nat -> Attempt, retries: int)
    requires Fetch(attempt, retries).outcome.Err?
    ensures var n := if retries < 0 then 0 else retries;
      2 * Total(Fetch(attempt, retries).delays) == 15 * n * (n + 1)
  {
    LinearTotal(Fetch(attempt, retries).delays, 15, 0);
  }
}

=== FILE: http.dfy ===
/** What one HTTP request can come back with, as the crawler sees it
    through its client session. */
module Http {
  import opened Results
  import opened Strings

  /** An exception raised by the client; `text` is what `str(e)` prints. */
  datatype Exc = Exc(text: string)

  /** Response headers in arrival order; a name may repeat. */
  type Headers = seq<(string, string)>

  /** A received response: status code, decoded body and headers. */
  datatype Response = Response(status: int, body: string, headers: Headers)

  /** One request attempt either raises or yields a response, whatever
      its status code. */
  datatype Attempt = Raised(exc: Exc) | Responded(resp: Response)

  /** Case-insensitive header lookup that yields the first value stored
      under `name`, as the client's header multidict does. */
  function HeaderGet(headers: Headers, name: string): (r: Option<string>)
    ensures r.None? <==> forall i | 0 <= i < |headers| :: Lower(headers[i].0) != Lower(name)
    ensures r.Some? ==> exists i | 0 <= i < |headers| ::
      && Lower(headers[i].0) == Lower(name)
      && headers[i].1 == r.value
      && forall j | 0 <= j < i :: Lower(headers[j].0) != Lower(name)
    decreases |headers|
  {
    if |headers| == 0 then None
    else if Lower(headers[0].0) == Lower(name) then Some(headers[0].1)
    else
      var r := HeaderGet(headers[1..], name);
      assert forall i | 1 <= i < |headers| :: headers[i] == headers[1..][i - 1];
      r
  }
}

=== FILE: pipeline.dfy ===
/** The per-URL worker and the public `crawl` of the asynchronous crawler
    (crawler_async.py). The concurrency gate, the progress callback and the
    client session are not modelled; the network, the URL parser, the
    percent-decoder and the HTML parser are parameters. */
module Pipeline {
  import opened Results
  import opened Strings
  import opened Http
  import Fetcher
  import Robots
  import Analyzer

  /** Everything outside the crawler that a worker consults.
      `net(url, k)` is the outcome of the attempt with index `k` of one
      `fetch` of `url`. */
  datatype Env = Env(
    net: (string, nat) -> Attempt,
    urlparse: string -> Robots.UrlParts,
    unquote: string -> string,
    soup: string -> Analyzer.Doc)

  /** One row of the report. A failed fetch gives a row with only the URL,
      the HTTP status "-" and the error text. */
  datatype Record =
    | ErrorRecord(url: string, httpStatus: string, status: string)
    | PageRecord(url: string, code: int, status: string, robots: Robots.Verdict,
                 title: string, description: string, h1: string, words: nat, cms: string)

  /** An exception that escapes a worker and with it the whole `crawl`. */
  datatype Crash = RobotsCrashed(robots: Robots.RobotsCrash) | CmsCrashed(cms: Analyzer.AnalyzerCrash)

  /** The attempts a worker makes on the page itself. */
  const PageRetries := 3

  /** A URL given without "http://" or "https://" gets "https://" in front. */
  function NormalizeScheme(url: string): (r: string)
    ensures StartsWith(r, "http://") || StartsWith(r, "https://")
    ensures r == url <==> StartsWith(url, "http://") || StartsWith(url, "https://")
    ensures r != url ==> r == "https://" + url
  {
    if StartsWith(url, "http://") || StartsWith(url, "https://") then url else "https://" + url
  }

  /** The worker's `fetch` of the page `u`: three attempts, and the
      pauses it slept, in tenths of a second. */
  function PageRun(u: string, env: Env): (run: Fetcher.FetchRun)
    ensures run.outcome.Err? <==> forall k | 0 <= k < PageRetries :: env.net(u, k).Raised?
    ensures run.outcome.Err? ==>
      && env.net(u, PageRetries - 1).Raised?
      && run.outcome.error == Fetcher.Reraised(env.net(u, PageRetries - 1).exc)
    ensures run.outcome.Ok? ==>
      && |run.delays| < PageRetries
      && env.net(u, |run.delays|) == Responded(run.outcome.value)
      && forall j | 0 <= j < |run.delays| :: env.net(u, j).Raised?
  {
    Fetcher.Fetch((k: nat) => env.net(u, k), PageRetries)
  }

  /** `worker(url, session, sem)`: fetch the page with three attempts; on
      failure a short error record; otherwise index-ability, page fields,
      robots verdict and CMS, in that order of evaluation. */
  function Worker(url: string, env: Env): (r: Result<Record, Crash>)
    ensures r.Ok? ==> r.value.url == NormalizeScheme(url)
    ensures (r.Ok? && r.value.ErrorRecord?) <==> forall k | 0 <= k < PageRetries :: env.net(NormalizeScheme(url), k).Raised?
    ensures r.Ok? && r.value.ErrorRecord? ==>
      && r.value.httpStatus == "-"
      && r.value.status == "Error: " + env.net(NormalizeScheme(url), PageRetries - 1).exc.text
    ensures r.Ok? && r.value.PageRecord? ==> exists k | 0 <= k < PageRetries ::
      && env.net(NormalizeScheme(url), k).Responded?
      && r.value.code == env.net(NormalizeScheme(url), k).resp.status
      && (forall j | 0 <= j < k :: env.net(NormalizeScheme(url), j).Raised?)
    ensures r.Err? ==> exists k | 0 <= k < PageRetries :: env.net(NormalizeScheme(url), k).Responded?
  {
    var u := NormalizeScheme(url);
    var run := PageRun(u, env);
    match run.outcome
    case Err(failure) => Ok(ErrorRecord(u, "-", "Error: " + failure.exc.text))
    case Ok(resp) =>
      var r := Analyze(u, resp, env);
      assert r.Ok? ==> r.value.code == env.net(u, |run.delays|).resp.status;
      assert r.Err? ==> env.net(u, |run.delays|).Responded?;
      r
  }

  /** The analysis of a fetched page: index-ability, page fields, robots
      verdict and CMS, evaluated in that order. */
  function Analyze(u: string, resp: Response, env: Env): (r: Result<Record, Crash>)
    ensures r.Ok? ==> r.value.PageRecord? && r.value.url == u && r.value.code == resp.status
    ensures r.Err? <==>
      Robots.CheckRobots(u, env.urlparse, env.unquote, env.net).Err?
      || Analyzer.DetectCms(env.soup(resp.body), resp.body, u).Err?
  {
    var doc := env.soup(resp.body);
    var seo := Analyzer.CheckNoindex(resp.headers, doc);
    var fields := Analyzer.ParsePage(doc);
    match Robots.CheckRobots(u, env.urlparse, env.unquote, env.net)
    case Err(e) => Err(RobotsCrashed(e))
    case Ok(robots) =>
      match Analyzer.DetectCms(doc, resp.body, u)
      case Err(e) => Err(CmsCrashed(e))
      case Ok(cms) =>
        Ok(PageRecord(u, resp.status, Analyzer.IndexabilityLabel(seo), robots,
                      fields.title, fields.description, fields.h1, fields.words, cms))
  }

  /** The fields of a page record: the index-ability label, the robots
      verdict and the CMS are the results of the three analyses, and the
      title, description, heading and word count those of `parse_page`. */
  lemma AnalyzeFields(u: string, resp: Response, env: Env)
    ensures var r := Analyze(u, resp, env);
      r.Ok? ==>
      && r.value.status == Analyzer.IndexabilityLabel(Analyzer.CheckNoindex(resp.headers, env.soup(resp.body)))
      && r.value.robots == Robots.CheckRobots(u, env.urlparse, env.unquote, env.net).value
      && r.value.cms == Analyzer.DetectCms(env.soup(resp.body), resp.body, u).value
    ensures var r := Analyze(u, resp, env);
      r.Ok? ==> var fields := Analyzer.ParsePage(env.soup(resp.body));
      && r.value.title == fields.title && r.value.description == fields.description
      && r.value.h1 == fields.h1 && r.value.words == fields.words
  {
  }

  /** `asyncio.gather` over one task per element of `urls`: the results
      in the order of `urls`, or the exception of a task that raised. */
  method Gather(urls: seq<string>, work: string -> Result<Record, Crash>) returns (r: Result<seq<Record>, Crash>)
    ensures r.Ok? <==> forall i | 0 <= i < |urls| :: work(urls[i]).Ok?
    ensures r.Ok? ==> |r.value| == |urls| && forall i | 0 <= i < |urls| :: work(urls[i]) == Ok(r.value[i])
    ensures r.Err? ==> exists i | 0 <= i < |urls| :: work(urls[i]) == Err(r.error)
  {
    var rows: seq<Record> := [];
    for i := 0 to |urls|
      invariant |rows| == i
      invariant forall j | 0 <= j < i :: work(urls[j]) == Ok(rows[j])
    {
      var w := work(urls[i]);
      if w.Err? {
        return Err(w.error);
      }
      rows := rows + [w.value];
    }
    return Ok(rows);
  }

  /** `crawl(urls)`: one worker per URL, results collected by position as
      `asyncio.gather` collects them; an exception that escapes a worker
      ends the crawl. */
  method Crawl(urls: seq<string>, env: Env) returns (r: Result<seq<Record>, Crash>)
    ensures r.Ok? <==> forall i | 0 <= i < |urls| :: Worker(urls[i], env).Ok?
    ensures r.Ok? ==> |r.value| == |urls|
    ensures r.Ok? ==> forall i | 0 <= i < |urls| :: r.value[i] == Worker(urls[i], env).value
    ensures r.Ok? ==> forall i | 0 <= i < |urls| :: r.value[i].url == NormalizeScheme(urls[i])
    ensures r.Err? ==> exists i | 0 <= i < |urls| :: Worker(urls[i], env) == Err(r.error)
  {
    r := Gather(urls, u => Worker(u, env));
  }
}

=== FILE: results.dfy ===
/** Failure-carrying values shared by every module of the crawler model. */
module Results {

  /** An optional value: Python's `None` versus a present value. */
  datatype Option<+T> = None | Some(value: T)

  /** The outcome of a computation that may raise: `Ok` is a normal return,
      `Err` an exception that escapes to the caller. */
  datatype Result<+T, +E> = Ok(value: T) | Err(error: E)
}

=== FILE: robots.dfy ===
/** The robots policy evaluator of the asynchronous crawler (`check_robots`
    in crawler_async.py): the rule collection of the wildcard group and
    the longest-literal-prefix verdict. */
module Robots {
  import opened Results
  import opened Strings
  import opened Http
  import Fetcher

  /** What one line of robots text means to the parser. `Agent(None)` is a
      user-agent line without a ':' in it. */
  datatype LineKind = Blank | Agent(agent: Option<string>) | Directive(name: string, value: string)

  /** The allow and disallow prefixes collected, each in line order. */
  datatype Rules = Rules(allow: seq<string>, disallow: seq<string>)

  /** The parser's state: whether directives are being collected, and
      what has been collected so far. */
  datatype ParseState = ParseState(collecting: bool, rules: Rules)

  /** The `IndexError` raised for a user-agent line without a ':'; nothing
      in the crawler catches it. */
  datatype RobotsCrash = AgentWithoutColon

  datatype Verdict = Allowed | Disallowed | RobotsError | RobotsNotFound

  /** The parts of a URL that `urllib.parse.urlparse` yields and the
      evaluator reads. */
  datatype UrlParts = UrlParts(scheme: string, netloc: string, path: string)

  /** How the parser reads one raw line: trimmed; skipped when empty or a
      comment; a user-agent line when the lower-cased line starts with
      "user-agent"; otherwise a directive whose lower-cased, trimmed name
      stands before the first ':' and whose trimmed value after it. */
  function Classify(raw: string): (k: LineKind)
    ensures k.Blank? <==> Strip(raw) == [] || StartsWith(Strip(raw), "#")
    ensures k.Agent? <==> !k.Blank? && StartsWith(Lower(Strip(raw)), "user-agent")
    ensures k.Agent? ==> (k.agent.None? <==> ':' !in Strip(raw))
    ensures k.Agent? ==> k.agent == AfterFirst(Strip(raw), ':')
    ensures k.Directive? ==>
      && k.name == Strip(Lower(BeforeFirst(Strip(raw), ':')))
      && k.value == Strip(match AfterFirst(Strip(raw), ':') case None => [] case Some(v) => v)
  {
    var line := Strip(raw);
    if line == [] || StartsWith(line, "#") then Blank
    else if StartsWith(Lower(line), "user-agent") then Agent(AfterFirst(line, ':'))
    else
      var value := match AfterFirst(line, ':') case None => [] case Some(v) => v;
      Directive(Strip(Lower(BeforeFirst(line, ':'))), Strip(value))
  }

  /** True when a user-agent value switches collection on: it holds a '*'
      anywhere, not only as the whole value. */
  predicate Wildcard(value: string) {
    '*' in value
  }

  /** Every line of a robots text, classified. */
  function Kinds(lines: seq<string>): (ks: seq<LineKind>)
    ensures |ks| == |lines|
    ensures forall i | 0 <= i < |lines| :: ks[i] == Classify(lines[i])
  {
    seq(|lines|, i requires 0 <= i < |lines| => Classify(lines[i]))
  }

  /** One pass of the parser's loop body. */
  function Step(st: ParseState, k: LineKind): (r: Result<ParseState, RobotsCrash>)
    ensures r.Err? <==> k == Agent(None)
    ensures r.Ok? && k.Agent? ==> r.value == st.(collecting := Wildcard(k.agent.value))
    ensures r.Ok? && !k.Agent? ==> r.value.collecting == st.collecting
    ensures r.Ok? && !st.collecting ==> r.value.rules == st.rules
  {
    match k
    case Blank => Ok(st)
    case Agent(None) => Err(AgentWithoutColon)
    case Agent(Some(v)) => Ok(st.(collecting := Wildcard(v)))
    case Directive(d, v) =>
      if !st.collecting then Ok(st)
      else if d == "disallow" && v != [] then
        Ok(st.(rules := st.rules.(disallow := st.rules.disallow + [v])))
      else if d == "allow" then
        Ok(st.(rules := st.rules.(allow := st.rules.allow + [v])))
      else Ok(st)
  }

  /** The parser's loop over the classified lines, in order; the first
      crash ends it. */
  function ParseKinds(ks: seq<LineKind>): (r: Result<ParseState, RobotsCrash>)
    ensures r.Err? <==> exists i | 0 <= i < |ks| :: ks[i] == Agent(None)
    ensures r.Ok? ==> forall d | d in r.value.rules.disallow :: d != []
    decreases |ks|
  {
    if |ks| == 0 then Ok(ParseState(false, Rules([], [])))
    else
      var front := ks[..|ks| - 1];
      assert forall i | 0 <= i < |front| :: front[i] == ks[i];
      match ParseKinds(front)
      case Err(e) => Err(e)
      case Ok(st) => Step(st, ks[|ks| - 1])
  }

  /** The rules a robots text yields, or the crash its parse raises. */
  function ParseRobots(txt: string): Result<ParseState, RobotsCrash> {
    ParseKinds(Kinds(SplitLines(txt)))
  }

  // ----- The group semantics the parser implements -----

  /** Line `j` of `prefix` is a user-agent line with a wildcard value and
      no later line of `prefix` is a user-agent line. */
  predicate OpensGroup(prefix: seq<LineKind>, j: int) {
    && 0 <= j < |prefix|
    && prefix[j].Agent?
    && prefix[j].agent.Some?
    && Wildcard(prefix[j].agent.value)
    && forall m | j < m < |prefix| :: !prefix[m].Agent?
  }

  /** Directives following `prefix` are collected: the most recent
      user-agent line of `prefix` has a wildcard value. */
  predicate Open(prefix: seq<LineKind>) {
    exists j | 0 <= j < |prefix| :: OpensGroup(prefix, j)
  }

  /** Line `i` contributes `x` to the disallow list. */
  predicate DisallowAt(ks: seq<LineKind>, i: int, x: string) {
    0 <= i < |ks| && Open(ks[..i]) && ks[i] == Directive("disallow", x) && x != []
  }

  /** Line `i` contributes `x` to the allow list. */
  predicate AllowAt(ks: seq<LineKind>, i: int, x: string) {
    0 <= i < |ks| && Open(ks[..i]) && ks[i] == Directive("allow", x)
  }

  lemma OpenAfter(p: seq<LineKind>, k: LineKind)
    ensures k.Agent? ==> (Open(p + [k]) <==> k.agent.Some? && Wildcard(k.agent.value))
    ensures !k.Agent? ==> (Open(p + [k]) <==> Open(p))
  {
    var q := p + [k];
    if k.Agent? {
      if k.agent.Some? && Wildcard(k.agent.value) {
        assert OpensGroup(q, |p|);
      }
      forall j | 0 <= j < |p| ensures !OpensGroup(q, j) {
        assert q[|p|] == k;
      }
    } else {
      forall j | 0 <= j < |p| ensures OpensGroup(q, j) <==> OpensGroup(p, j) {
        assert forall m | j < m < |p| :: q[m] == p[m];
        assert q[|p|] == k;
      }
      assert !OpensGroup(q, |p|);
    }
  }

  /** The parser crashes exactly when some line is a user-agent line
      without ':'; otherwise it collects, from the lines inside a wildcard
      group, every non-empty disallow value and every allow value, and
      nothing else. */
  lemma {:induction false} ParseFollowsGroups(ks: seq<LineKind>)
    ensures ParseKinds(ks).Err? <==> exists i | 0 <= i < |ks| :: ks[i] == Agent(None)
    ensures ParseKinds(ks).Ok? ==> ParseKinds(ks).value.collecting == Open(ks)
    ensures ParseKinds(ks).Ok? ==> forall x ::
      x in ParseKinds(ks).value.rules.disallow <==> exists i :: DisallowAt(ks, i, x)
    ensures ParseKinds(ks).Ok? ==> forall x ::
      x in ParseKinds(ks).value.rules.allow <==> exists i :: AllowAt(ks, i, x)
    decreases |ks|
  {
    if |ks| == 0 {
      return;
    }
    var n := |ks|;
    var p := ks[..n - 1];
    var k := ks[n - 1];
    assert ks == p + [k];
    ParseFollowsGroups(p);
    OpenAfter(p, k);
    forall i | 0 <= i < n - 1 ensures ks[..i] == p[..i] && ks[i] == p[i] { }
    forall i, x | 0 <= i < n - 1 ensures DisallowAt(ks, i, x) <==> DisallowAt(p, i, x) {
      assert ks[..i] == p[..i];
    }
    forall i, x | 0 <= i < n - 1 ensures AllowAt(ks, i, x) <==> AllowAt(p, i, x) {
      assert ks[..i] == p[..i];
    }
    if ParseKinds(p).Err? {
      var i :| 0 <= i < |p| && p[i] == Agent(None);
      assert ks[i] == Agent(None);
    } else if ParseKinds(ks).Err? {
      assert ks[n - 1] == Agent(None);
    } else {
      assert ks[..n - 1] == p;
      var st := ParseKinds(p).value;
      var st2 := ParseKinds(ks).value;
      assert Step(st, k) == Ok(st2);
      forall x ensures x in st2.rules.disallow <==> exists i :: DisallowAt(ks, i, x) {
        assert DisallowAt(ks, n - 1, x) <==> st.collecting && k == Directive("disallow", x) && x != [];
        assert x in st2.rules.disallow <==>
          x in st.rules.disallow || (st.collecting && k == Directive("disallow", x) && x != []);
        if x in st2.rules.disallow && x !in st.rules.disallow {
          assert DisallowAt(ks, n - 1, x);
        }
      }
      forall x ensures x in st2.rules.allow <==> exists i :: AllowAt(ks, i, x) {
        assert AllowAt(ks, n - 1, x) <==> st.collecting && k == Directive("allow", x);
        assert x in st2.rules.allow <==>
          x in st.rules.allow || (st.collecting && k == Directive("allow", x));
        if x in st2.rules.allow && x !in st.rules.allow {
          assert AllowAt(ks, n - 1, x);
        }
      }
    }
  }

  /** Every value in the disallow list is non-empty. */
  lemma DisallowNonEmpty(ks: seq<LineKind>)
    requires ParseKinds(ks).Ok?
    ensures forall d | d in ParseKinds(ks).value.rules.disallow :: d != []
  {
    ParseFollowsGroups(ks);
  }

  // ----- The verdict -----

  /** The longest entry of `rules` that is a prefix of `path`, the first
      such one among equally long ones, or "" when none is. */
  function Longest(rules: seq<string>, path: string): (r: string)
    ensures r == [] || (r in rules && r <= path)
    ensures forall x | x in rules && x <= path :: |x| <= |r|
    decreases |rules|
  {
    if |rules| == 0 then []
    else
      var rest := Longest(rules[1..], path);
      if rules[0] <= path && |rules[0]| >= |rest| then rules[0] else rest
  }

  /** The verdict for a decoded path: allowed when the longest matching
      allow prefix is at least as long as the longest matching disallow
      prefix. Equivalently, every non-empty matching disallow prefix is
      matched by an allow prefix at least as long. */
  function Decide(rules: Rules, path: string): (v: Verdict)
    ensures v == Allowed || v == Disallowed
    ensures v == Allowed <==>
      forall d | d in rules.disallow && d <= path && d != [] ::
        exists a | a in rules.allow && a <= path :: |a| >= |d|
  {
    var bestAllow := Longest(rules.allow, path);
    var bestDisallow := Longest(rules.disallow, path);
    if |bestAllow| >= |bestDisallow| then Allowed else Disallowed
  }

  /** The entries of `rules` that are not empty, in order. */
  function NonEmpty(rules: seq<string>): (r: seq<string>)
    ensures forall x | x in r :: x in rules && x != []
    ensures forall x | x in rules && x != [] :: x in r
  {
    if |rules| == 0 then []
    else (if rules[0] == [] then [] else [rules[0]]) + NonEmpty(rules[1..])
  }

  lemma {:induction false} LongestIgnoresEmpty(rules: seq<string>, path: string)
    ensures |Longest(NonEmpty(rules), path)| == |Longest(rules, path)|
    decreases |rules|
  {
    if |rules| > 0 {
      LongestIgnoresEmpty(rules[1..], path);
      if rules[0] != [] {
        assert NonEmpty(rules) == [rules[0]] + NonEmpty(rules[1..]);
        assert NonEmpty(rules)[1..] == NonEmpty(rules[1..]);
      }
    }
  }

  /** An empty allow value is collected but never changes a verdict. */
  lemma EmptyAllowIrrelevant(allow: seq<string>, disallow: seq<string>, path: string)
    ensures Decide(Rules(allow, disallow), path) == Decide(Rules(NonEmpty(allow), disallow), path)
  {
    LongestIgnoresEmpty(allow, path);
  }

  // ----- check_robots -----

  function RobotsUrl(p: UrlParts): string {
    p.scheme + "://" + p.netloc + "/robots.txt"
  }

  /** The path the rules are matched against: the decoded path, "/"
      when the URL has none. */
  function EvalPath(p: UrlParts, unquote: string -> string): string {
    unquote(if p.path == [] then "/" else p.path)
  }

  /** The body of the first of two attempts on `url` that does not raise. */
  function RobotsBody(net: (string, nat) -> Attempt, url: string): Option<string> {
    if net(url, 0).Responded? then Some(net(url, 0).resp.body)
    else if net(url, 1).Responded? then Some(net(url, 1).resp.body)
    else None
  }

  /** `check_robots(session, page_url)`: fetches the robots text of the
      page's origin with two attempts and judges the page's path. */
  function CheckRobots(pageUrl: string, urlparse: string -> UrlParts, unquote: string -> string,
                       net: (string, nat) -> Attempt): (r: Result<Verdict, RobotsCrash>)
    ensures RobotsBody(net, RobotsUrl(urlparse(pageUrl))).None? <==> r == Ok(RobotsError)
    ensures r == Ok(RobotsNotFound) <==>
      && RobotsBody(net, RobotsUrl(urlparse(pageUrl))).Some?
      && StartsWith(Lower(RobotsBody(net, RobotsUrl(urlparse(pageUrl))).value), "404")
    ensures r.Err? <==>
      && RobotsBody(net, RobotsUrl(urlparse(pageUrl))).Some?
      && !StartsWith(Lower(RobotsBody(net, RobotsUrl(urlparse(pageUrl))).value), "404")
      && ParseRobots(RobotsBody(net, RobotsUrl(urlparse(pageUrl))).value).Err?
    ensures r.Ok? && (r.value == Allowed || r.value == Disallowed) ==>
      var body := RobotsBody(net, RobotsUrl(urlparse(pageUrl))).value;
      r.value == Decide(ParseRobots(body).value.rules, EvalPath(urlparse(pageUrl), unquote))
  {
    var p := urlparse(pageUrl);
    var robotsUrl := RobotsUrl(p);
    var run := Fetcher.Fetch((k: nat) => net(robotsUrl, k), 2);
    if run.outcome.Err? then Ok(RobotsError)
    else
      var txt := run.outcome.value.body;
      if StartsWith(Lower(txt), "404") then Ok(RobotsNotFound)
      else match ParseRobots(txt)
        case Err(e) => Err(e)
        case Ok(st) => Ok(Decide(st.rules, EvalPath(p, unquote)))
  }
}

=== FILE: sitemap.dfy ===
/** The sitemap loader (sitemap_loader.py): the HTML-likeness test of a
    URL, the download with retries on connection and timeout errors, and
    the filter that turns a sitemap into a list of page URLs. The URL
    parser, the XML parser and gzip are parameters. */
module Sitemap {
  import opened Results
  import opened Strings
  import opened Http
  import Fetcher

  newtype byte = x: int | 0 <= x < 256

  type Bytes = seq<byte>

  // ----- is_html_url -----

  /** The extensions, after lower-casing, of pages taken to be HTML. */
  predicate IsHtmlExtension(ext: string) {
    ext == "" || ext == ".html" || ext == ".htm" || ext == ".php" || ext == ".asp" || ext == ".aspx"
  }

  /** The text after the last '.' of `p`. */
  function AfterLastDot(p: string): (r: string)
    requires '.' in p
    ensures EndsWith(p, r) && |r| < |p| && p[|p| - |r| - 1] == '.'
    ensures '.' !in r
    decreases |p|
  {
    if p[|p| - 1] == '.' then []
    else
      var front := p[..|p| - 1];
      assert '.' in front by {
        var i :| 0 <= i < |p| && p[i] == '.';
        assert front[i] == '.';
      }
      var r := AfterLastDot(front);
      assert p[|p| - |r| - 1..] == front[|front| - |r|..] + [p[|p| - 1]];
      r + [p[|p| - 1]]
  }

  /** `"." + path.rsplit(".", 1)[-1] if "." in path else ""`: the '.' and
      what follows the last '.' anywhere in the path, directories
      included. */
  function Extension(p: string): (ext: string)
    ensures ext == [] <==> '.' !in p
    ensures ext != [] ==> ext[0] == '.' && '.' !in ext[1..] && EndsWith(p, ext)
  {
    if '.' in p then
      var tail := AfterLastDot(p);
      assert ("." + tail)[1..] == tail;
      assert p[|p| - |tail| - 1..] == "." + tail;
      "." + tail
    else []
  }

  /** A suffix made of one '.' and no further '.' is the extension. */
  lemma ExtensionOfSuffix(p: string, e: string)
    requires e != [] && e[0] == '.' && '.' !in e[1..] && EndsWith(p, e)
    ensures Extension(p) == e
  {
    assert p[|p| - |e|] == '.';
    var ext := Extension(p);
    assert p[|p| - |e|..] == e;
  }

  /** `is_html_url(url)`, where `urlPath` is the path component that
      `urlparse` finds. An empty path, a path ending in '/' or '#', a path
      without '.' and one ending in an HTML extension are HTML; anything
      else is not. */
  function IsHtmlUrl(url: string, urlPath: string -> string): (r: bool)
    ensures var p := Lower(urlPath(url));
      r <==> || p == []
             || EndsWith(p, "/") || EndsWith(p, "#")
             || '.' !in p
             || EndsWith(p, ".html") || EndsWith(p, ".htm") || EndsWith(p, ".php")
             || EndsWith(p, ".asp") || EndsWith(p, ".aspx")
  {
    var p := Lower(urlPath(url));
    if p == [] || EndsWith(p, "/") || EndsWith(p, "#") then true
    else
      var ext := Extension(p);
      ExtensionIsHtml(p);
      IsHtmlExtension(ext)
  }

  /** Membership of the extension in the HTML list, as suffixes of the
      path. */
  lemma ExtensionIsHtml(p: string)
    ensures IsHtmlExtension(Extension(p)) <==>
      || '.' !in p
      || EndsWith(p, ".html") || EndsWith(p, ".htm") || EndsWith(p, ".php")
      || EndsWith(p, ".asp") || EndsWith(p, ".aspx")
  {
    HtmlExtensionIsSuffix(p);
    if EndsWith(p, ".html") { HtmlSuffixIsExtension(p, ".html"); }
    if EndsWith(p, ".htm") { HtmlSuffixIsExtension(p, ".htm"); }
    if EndsWith(p, ".php") { HtmlSuffixIsExtension(p, ".php"); }
    if EndsWith(p, ".asp") { HtmlSuffixIsExtension(p, ".asp"); }
    if EndsWith(p, ".aspx") { HtmlSuffixIsExtension(p, ".aspx"); }
  }

  lemma HtmlExtensionIsSuffix(p: string)
    ensures IsHtmlExtension(Extension(p)) ==>
      || '.' !in p
      || EndsWith(p, ".html") || EndsWith(p, ".htm") || EndsWith(p, ".php")
      || EndsWith(p, ".asp") || EndsWith(p, ".aspx")
  {
    var ext := Extension(p);
    if ext != [] {
      assert EndsWith(p, ext);
    }
  }

  lemma HtmlSuffixIsExtension(p: string, e: string)
    requires e in [".html", ".htm", ".php", ".asp", ".aspx"] && EndsWith(p, e)
    ensures IsHtmlExtension(Extension(p))
  {
    assert e[0] == '.' && '.' !in e[1..];
    ExtensionOfSuffix(p, e);
  }

  lemma SlashIsNoHtmlExtension(e: string)
    requires '/' in e
    ensures !IsHtmlExtension(e)
  {
    assert '/' !in ".html" && '/' !in ".htm" && '/' !in ".php" && '/' !in ".asp" && '/' !in ".aspx";
  }

  /** A '.' in a directory name decides the extension: a path whose last
      '.' is followed by a '/' somewhere later is not HTML unless it ends
      in '/' or '#'. "/v1.2/intro" is such a path. */
  lemma DottedDirectoryIsNotHtml(url: string, urlPath: string -> string, dir: string, rest: string)
    requires Lower(urlPath(url)) == dir + "." + rest
    requires '.' !in rest && '/' in rest
    requires !EndsWith(rest, "/") && !EndsWith(rest, "#")
    ensures !IsHtmlUrl(url, urlPath)
  {
    DottedPath(Lower(urlPath(url)), dir, rest);
  }

  lemma DottedPath(p: string, dir: string, rest: string)
    requires p == dir + "." + rest
    requires '.' !in rest && '/' in rest
    requires !EndsWith(rest, "/") && !EndsWith(rest, "#")
    ensures p != [] && !EndsWith(p, "/") && !EndsWith(p, "#") && !IsHtmlExtension(Extension(p))
  {
    DottedExtension(p, dir, rest);
    SlashIsNoHtmlExtension("." + rest);
    SameEnding(p, dir + ".", rest);
  }

  lemma DottedExtension(p: string, dir: string, rest: string)
    requires p == dir + "." + rest && '.' !in rest
    ensures Extension(p) == "." + rest
  {
    var e := "." + rest;
    assert e[1..] == rest;
    assert p[|p| - |e|..] == e;
    ExtensionOfSuffix(p, e);
  }

  lemma SameEnding(p: string, front: string, rest: string)
    requires p == front + rest && rest != []
    ensures EndsWith(p, "/") == EndsWith(rest, "/") && EndsWith(p, "#") == EndsWith(rest, "#")
  {
    assert p[|p| - 1] == rest[|rest| - 1];
  }

  // ----- _fetch_url -----

  /** What one `requests.get` does: a response with its status and
      content, or one of three kinds of exception. */
  datatype Outcome =
    | Got(status: int, content: Bytes)
    | ConnectionFailed(exc: Exc)
    | TimedOut(exc: Exc)
    | Failed(exc: Exc)

  /** How `_fetch_url` ends: with the content, with the `None` it falls
      through to when `retries` allows no attempt, or with an exception. */
  datatype Fetched = Returned(content: Bytes) | ReturnedNone | Threw(error: FetchError)

  /** The `HTTPError` that `raise_for_status` raises, or an exception of
      the request passed on. */
  datatype FetchError = HttpError(status: int) | PassedOn(exc: Exc)

  /** The outcome of one call together with the pauses it slept, in
      tenths of a second. */
  datatype FetchRun = FetchRun(outcome: Fetched, delays: seq<nat>)

  /** `raise_for_status` raises for the client and server error codes. */
  predicate IsErrorStatus(status: int) {
    400 <= status < 600
  }

  /** The exceptions `_fetch_url` retries. */
  predicate Retryable(o: Outcome) {
    o.ConnectionFailed? || o.TimedOut?
  }

  /** `_fetch_url(url, retries, backoff)` with `backoff` in tenths of a
      second, where `attempt(k)` is the outcome of the attempt with 0-based
      index `k`. */
  function FetchUrl(attempt: nat -> Outcome, retries: int, backoff: nat): (r: FetchRun)
    ensures r.outcome.ReturnedNone? <==> retries <= 0
    ensures retries <= 0 ==> r.delays == []
    ensures retries > 0 ==> |r.delays| < retries && forall j | 0 <= j < |r.delays| :: Retryable(attempt(j))
    ensures forall j | 0 <= j < |r.delays| :: r.delays[j] == backoff * (j + 1)
    ensures retries > 0 ==> var last := attempt(|r.delays|);
      && (r.outcome.Returned? <==> last.Got? && !IsErrorStatus(last.status))
      && (r.outcome.Returned? ==> r.outcome.content == last.content)
      && (r.outcome.Threw? && r.outcome.error.HttpError? <==> last.Got? && IsErrorStatus(last.status))
      && (last.Got? && IsErrorStatus(last.status) ==> r.outcome == Threw(HttpError(last.status)))
      && (last.Failed? ==> r.outcome == Threw(PassedOn(last.exc)))
      && (Retryable(last) ==> |r.delays| == retries - 1 && r.outcome == Threw(PassedOn(last.exc)))
  {
    if retries <= 0 then FetchRun(ReturnedNone, [])
    else FetchUrlFrom(attempt, retries, backoff, 0)
  }

  /** The loop of `_fetch_url` from the attempt with index `k` on. */
  function FetchUrlFrom(attempt: nat -> Outcome, retries: int, backoff: nat, k: nat): (r: FetchRun)
    requires k < retries
    ensures k + |r.delays| < retries
    ensures forall j | k <= j < k + |r.delays| :: Retryable(attempt(j))
    ensures forall j | 0 <= j < |r.delays| :: r.delays[j] == backoff * (k + j + 1)
    ensures var last := attempt(k + |r.delays|);
      && (r.outcome.Returned? <==> last.Got? && !IsErrorStatus(last.status))
      && (r.outcome.Returned? ==> r.outcome.content == last.content)
      && (r.outcome.Threw? && r.outcome.error.HttpError? <==> last.Got? && IsErrorStatus(last.status))
      && (last.Got? && IsErrorStatus(last.status) ==> r.outcome == Threw(HttpError(last.status)))
      && (last.Failed? ==> r.outcome == Threw(PassedOn(last.exc)))
      && (Retryable(last) ==> k + |r.delays| == retries - 1 && r.outcome == Threw(PassedOn(last.exc)))
    decreases retries - k
  {
    match attempt(k)
    case Got(status, content) =>
      FetchRun(if IsErrorStatus(status) then Threw(HttpError(status)) else Returned(content), [])
    case Failed(e) => FetchRun(Threw(PassedOn(e)), [])
    case ConnectionFailed(e) => Retry(attempt, retries, backoff, k, e)
    case TimedOut(e) => Retry(attempt, retries, backoff, k, e)
  }

  /** The handler of a connection or timeout error on attempt `k`: pause
      and go on unless it was the last attempt, else raise it again. */
  function Retry(attempt: nat -> Outcome, retries: int, backoff: nat, k: nat, e: Exc): (r: FetchRun)
    requires k < retries && Retryable(attempt(k)) && attempt(k).exc == e
    ensures k + |r.delays| < retries
    ensures forall j | k <= j < k + |r.delays| :: Retryable(attempt(j))
    ensures forall j | 0 <= j < |r.delays| :: r.delays[j] == backoff * (k + j + 1)
    ensures var last := attempt(k + |r.delays|);
      && (r.outcome.Returned? <==> last.Got? && !IsErrorStatus(last.status))
      && (r.outcome.Returned? ==> r.outcome.content == last.content)
      && (r.outcome.Threw? && r.outcome.error.HttpError? <==> last.Got? && IsErrorStatus(last.status))
      && (last.Got? && IsErrorStatus(last.status) ==> r.outcome == Threw(HttpError(last.status)))
      && (last.Failed? ==> r.outcome == Threw(PassedOn(last.exc)))
      && (Retryable(last) ==> k + |r.delays| == retries - 1 && r.outcome == Threw(PassedOn(last.exc)))
    decreases retries - k, 0
  {
    if k < retries - 1 then
      var rest := FetchUrlFrom(attempt, retries, backoff, k + 1);
      FetchRun(rest.outcome, [backoff * (k + 1)] + rest.delays)
    else FetchRun(Threw(PassedOn(e)), [])
  }

  /** When every attempt fails with a connection or timeout error, the
      last one's exception is raised and the pauses, one fewer than the
      attempts, sum to `backoff * (1 + ... + (retries - 1))`. */
  lemma ExhaustedFetchUrl(attempt: nat -> Outcome, retries: int, backoff: nat)
    requires retries > 0
    requires forall j | 0 <= j < retries :: Retryable(attempt(j))
    ensures FetchUrl(attempt, retries, backoff).outcome == Threw(PassedOn(attempt(retries - 1).exc))
    ensures 2 * Fetcher.Total(FetchUrl(attempt, retries, backoff).delays) == backoff * (retries - 1) * retries
  {
    var r := FetchUrl(attempt, retries, backoff);
    assert Retryable(attempt(|r.delays|));
    Fetcher.LinearTotal(r.delays, backoff, 0);
  }

  // ----- load_sitemap -----

  /** The attempts and the pause unit `load_sitemap` uses. */
  const SitemapRetries := 3
  const SitemapBackoff: nat := 15

  /** The exception `gzip.decompress` raises on content that is not gzip;
      `load_sitemap` does not catch it. */
  datatype SitemapCrash = BadGzip

  /** Everything `load_sitemap` consults besides the URL: the network, the
      decompressor (`None` where it raises), the text of the `<loc>`
      elements of an XML document in document order, and the path
      component of a URL. */
  datatype Loader = Loader(
    attempt: string -> nat -> Outcome,
    gunzip: Bytes -> Option<Bytes>,
    locs: Bytes -> seq<string>,
    urlPath: string -> string)

  /** `a` keeps some of the elements of `b`, in their order. */
  predicate Subsequence(a: seq<string>, b: seq<string>)
    decreases |b|
  {
    if a == [] then true
    else if b == [] then false
    else if a[0] == b[0] then Subsequence(a[1..], b[1..])
    else Subsequence(a, b[1..])
  }

  /** The HTML pages among `urls`, in their order: the list comprehension
      at the end of `load_sitemap`. */
  function KeepHtml(urls: seq<string>, urlPath: string -> string): (r: seq<string>)
    ensures Subsequence(r, urls)
    ensures forall i | 0 <= i < |r| :: IsHtmlUrl(r[i], urlPath)
    decreases |urls|
  {
    if urls == [] then []
    else
      var rest := KeepHtml(urls[1..], urlPath);
      if IsHtmlUrl(urls[0], urlPath) then
        assert ([urls[0]] + rest)[1..] == rest;
        [urls[0]] + rest
      else rest
  }

  /** Every HTML page of `urls` is kept as often as it occurs, and no other
      page is kept. */
  lemma {:induction false} KeepHtmlCounts(urls: seq<string>, urlPath: string -> string)
    ensures forall u ::
      multiset(KeepHtml(urls, urlPath))[u] == (if IsHtmlUrl(u, urlPath) then multiset(urls)[u] else 0)
    decreases |urls|
  {
    if urls != [] {
      KeepHtmlCounts(urls[1..], urlPath);
      assert urls == [urls[0]] + urls[1..];
      assert multiset(urls) == multiset([urls[0]]) + multiset(urls[1..]);
    }
  }

  /** The `<loc>` texts with whitespace stripped. */
  function Cleaned(locs: seq<string>): (r: seq<string>)
    ensures |r| == |locs| && forall i | 0 <= i < |locs| :: r[i] == Strip(locs[i])
  {
    seq(|locs|, i requires 0 <= i < |locs| => Strip(locs[i]))
  }

  /** `load_sitemap(url)`: the empty list when the download fails, a crash
      when a ".gz" download does not decompress, and otherwise the HTML
      pages among the stripped `<loc>` texts, in document order. */
  function LoadSitemap(url: string, env: Loader): (r: Result<seq<string>, SitemapCrash>)
    ensures var run := FetchUrl(env.attempt(url), SitemapRetries, SitemapBackoff);
      && (run.outcome.Threw? ==> r == Ok([]))
      && (run.outcome.Returned? ==>
            (r.Err? <==> EndsWith(url, ".gz") && env.gunzip(run.outcome.content).None?))
    ensures var run := FetchUrl(env.attempt(url), SitemapRetries, SitemapBackoff);
      run.outcome.Returned? && r.Ok? ==>
      var content := if EndsWith(url, ".gz") then env.gunzip(run.outcome.content).value else run.outcome.content;
      var locs := Cleaned(env.locs(content));
      && Subsequence(r.value, locs)
      && (forall i | 0 <= i < |r.value| :: IsHtmlUrl(r.value[i], env.urlPath))
      && (forall u :: multiset(r.value)[u] == (if IsHtmlUrl(u, env.urlPath) then multiset(locs)[u] else 0))
  {
    var run := FetchUrl(env.attempt(url), SitemapRetries, SitemapBackoff);
    if !run.outcome.Returned? then Ok([])
    else
      var raw := run.outcome.content;
      if EndsWith(url, ".gz") && env.gunzip(raw).None? then Err(BadGzip)
      else
        var content := if EndsWith(url, ".gz") then env.gunzip(raw).value else raw;
        var locs := Cleaned(env.locs(content));
        KeepHtmlCounts(locs, env.urlPath);
        Ok(KeepHtml(locs, env.urlPath))
  }
}

=== FILE: spider.dfy ===
/** The domain spider (crawler_spider.py): start-URL normalisation, the
    link filters, the acceptance rule of its `fetch`, and the frontier loop
    of `crawl_domain` over an abstract site. */
module Spider {
  import opened Results
  import opened Strings
  import opened Http

  /** Everything outside the spider that `crawl_domain` consults:
      `get(url)` is the outcome of its single request for `url`,
      `anchors(html)` the `href` values of the page's `<a>` elements in
      document order, `join` is `urljoin`, `netloc`/`scheme` read those
      components of a URL, and `resolve` is `resolve_redirect`. */
  datatype Site = Site(
    get: string -> Attempt,
    anchors: string -> seq<string>,
    join: (string, string) -> string,
    netloc: string -> string,
    scheme: string -> string,
    resolve: string -> string)

  // ----- String helpers -----

  /** "https://" in front of a lower-cased domain that does not already
      start with "http". */
  function WithScheme(d: string): (full: string)
    requires IsLower(d)
    ensures IsLower(full)
    ensures StartsWith(full, "http")
    ensures StartsWith(d, "http") ==> full == d
    ensures !StartsWith(d, "http") ==> full == "https://" + d
  {
    if StartsWith(d, "http") then d
    else
      var full := "https://" + d;
      assert forall k | 8 <= k < |full| :: full[k] == d[k - 8];
      full
  }

  /** Trailing slashes removed from a URL that starts with "http". */
  function Unslash(full: string): (r: string)
    requires IsLower(full) && StartsWith(full, "http")
    ensures IsLower(r)
    ensures StartsWith(r, "http")
    ensures !EndsWith(r, "/")
    ensures r <= full && forall k | |r| <= k < |full| :: full[k] == '/'
  {
    TrimSlashesKeeps(full, "http");
    var r := TrimSlashes(full);
    assert forall k | 0 <= k < |r| :: r[k] == full[k];
    r
  }

  /** `normalize_domain(domain)`: trimmed and lower-cased, "https://" in
      front unless it already starts with "http", trailing slashes gone. */
  function NormalizeDomain(domain: string): (r: string)
    ensures IsLower(r)
    ensures StartsWith(r, "http")
    ensures !EndsWith(r, "/")
    ensures var full := WithScheme(Lower(Strip(domain)));
      r <= full && forall k | |r| <= k < |full| :: full[k] == '/'
  {
    Unslash(WithScheme(Lower(Strip(domain))))
  }

  /** `strip_www(hostname)`: one leading "www." removed, if present. */
  function StripWww(host: string): (r: string)
    ensures EndsWith(host, r)
    ensures StartsWith(host, "www.") <==> host == "www." + r
    ensures !StartsWith(host, "www.") ==> r == host
  {
    if StartsWith(host, "www.") then host[4..] else host
  }

  /** The pseudo-link prefixes the spider skips. */
  const PseudoSchemes: seq<string> := ["mailto:", "tel:", "javascript:"]

  /** `any(s.startswith(p) for p in prefixes)`. */
  function AnyPrefix(s: string, prefixes: seq<string>): (r: bool)
    ensures r <==> exists i | 0 <= i < |prefixes| :: StartsWith(s, prefixes[i])
    decreases |prefixes|
  {
    if |prefixes| == 0 then false
    else if StartsWith(s, prefixes[0]) then true
    else
      var r := AnyPrefix(s, prefixes[1..]);
      assert forall i | 1 <= i < |prefixes| :: prefixes[i] == prefixes[1..][i - 1];
      r
  }

  /** `is_valid_link(href)`: false exactly for the mail, telephone and
      script pseudo-links, compared case-sensitively. */
  function IsValidLink(href: string): (r: bool)
    ensures r <==> !StartsWith(href, "mailto:") && !StartsWith(href, "tel:") && !StartsWith(href, "javascript:")
  {
    !AnyPrefix(href, PseudoSchemes)
  }

  /** `urldefrag(u)[0].rstrip("/")`, the fragment cut at the first '#'. */
  function CleanLink(u: string): (r: string)
    ensures r <= u && '#' !in r
    ensures r == [] || r[|r| - 1] != '/'
    ensures forall k | |r| <= k < |u| && '#' !in u[..k] :: u[k] == '/' || u[k] == '#'
  {
    var page := BeforeFirst(u, '#');
    var r := TrimSlashes(page);
    forall k | |page| < k < |u| ensures '#' in u[..k] {
      assert u[..k][|page|] == '#';
    }
    r
  }

  // ----- fetch -----

  /** The `Content-Type` of a response, "" when it has none. */
  function ContentType(headers: Headers): string {
    match HeaderGet(headers, "Content-Type")
    case None => []
    case Some(v) => v
  }

  /** The spider's `fetch(session, url)`: the page text only for status
      200 with a content type containing "text/html"; no text for any other
      status and for every exception. */
  function FetchText(a: Attempt): (r: Option<string>)
    ensures r.Some? <==> a.Responded? && a.resp.status == 200 && Contains(ContentType(a.resp.headers), "text/html")
    ensures r.Some? ==> r.value == a.resp.body
  {
    match a
    case Raised(_) => None
    case Responded(resp) =>
      if resp.status == 200 && Contains(ContentType(resp.headers), "text/html") then Some(resp.body) else None
  }

  /** The page yields text the spider expands: fetched, HTML, non-empty. */
  predicate Expanded(site: Site, url: string) {
    var t := FetchText(site.get(url));
    t.Some? && t.value != []
  }

  /** The text of an expanded page. */
  function PageText(site: Site, url: string): string
    requires Expanded(site, url)
  {
    FetchText(site.get(url)).value
  }

  // ----- The frontier -----

  /** What the spider makes of an href on `url`'s page: nothing for a
      pseudo-link, otherwise the absolute URL with its fragment and
      trailing slashes removed. */
  function Target(site: Site, url: string): string -> Option<string> {
    h => if IsValidLink(h) then Some(CleanLink(site.join(url, h))) else None
  }

  /** `x` is what `target` makes of one of `hrefs`. */
  predicate Discovered(target: string -> Option<string>, hrefs: seq<string>, x: string) {
    exists i | 0 <= i < |hrefs| :: target(hrefs[i]) == Some(x)
  }

  /** `x` is a link on the expanded page `p` whose www-stripped host is
      `base`: a link the spider follows when the budget allows. */
  predicate Follows(site: Site, base: string, p: string, x: string) {
    && Expanded(site, p)
    && Discovered(Target(site, p), site.anchors(PageText(site, p)), x)
    && StripWww(site.netloc(x)) == base
  }

  /** The link relation of a crawl whose www-stripped host is `base`. */
  function Link(site: Site, base: string): (string, string) -> bool {
    (p, x) => Follows(site, base, p, x)
  }

  /** `x` is linked, by `edge`, from one of the first `n` pages of `pages`. */
  predicate Reached(edge: (string, string) -> bool, pages: seq<string>, n: int, x: string) {
    exists j | 0 <= j < n <= |pages| :: edge(pages[j], x)
  }


  /** The frontier holds every link followed from a visited page. */
  ghost predicate Closed(site: Site, base: string, visited: set<string>, toVisit: set<string>) {
    forall p, x | p in visited && Follows(site, base, p, x) :: x in visited || x in toVisit
  }

  /** The inner loop of `crawl_domain` over the hrefs of a page, where
      `target` is what the spider makes of each href and `host` reads the
      network location of a URL: a link is added to `to_visit` when its
      www-stripped host is `base`, it has not been visited, and visited
      plus pending pages are still fewer than `budget`. */
  function Enqueue(target: string -> Option<string>, host: string -> string, hrefs: seq<string>,
                   visited: set<string>, toVisit: set<string>, base: string, budget: int): (r: set<string>)
    ensures toVisit <= r
    ensures forall x | x in r && x !in toVisit ::
      x !in visited && StripWww(host(x)) == base && Discovered(target, hrefs, x)
    ensures |visited| + |toVisit| >= budget ==> r == toVisit
    ensures |visited| + |toVisit| < budget ==> |visited| + |r| <= budget
    ensures |visited| + |r| < budget ==> forall x |
      Discovered(target, hrefs, x) && StripWww(host(x)) == base :: x in visited || x in r
    decreases |hrefs|
  {
    if |hrefs| == 0 then toVisit
    else
      var next := Admit(target, host, hrefs[0], visited, toVisit, base, budget);
      var r := Enqueue(target, host, hrefs[1..], visited, next, base, budget);
      DiscoveredFirstOrRest(target, hrefs);
      r
  }

  /** The pending set after one href of the inner loop. */
  function Admit(target: string -> Option<string>, host: string -> string, h: string,
                 visited: set<string>, toVisit: set<string>, base: string, budget: int): set<string> {
    match target(h)
    case None => toVisit
    case Some(full) =>
      if StripWww(host(full)) == base && full !in visited && |visited| + |toVisit| < budget
      then toVisit + {full} else toVisit
  }

  /** The hrefs are walked in document order: an eligible link of
      `hrefs[i]` that ends up missing was cut off by the budget, which
      the links of the hrefs before it had already filled. */
  lemma {:induction false} EnqueueInOrder(target: string -> Option<string>, host: string -> string, hrefs: seq<string>,
                                          visited: set<string>, toVisit: set<string>, base: string, budget: int,
                                          i: int, x: string)
    requires 0 <= i < |hrefs| && target(hrefs[i]) == Some(x)
    requires StripWww(host(x)) == base && x !in visited
    requires x !in Enqueue(target, host, hrefs, visited, toVisit, base, budget)
    ensures |visited| + |Enqueue(target, host, hrefs[..i], visited, toVisit, base, budget)| >= budget
    decreases |hrefs|
  {
    var next := Admit(target, host, hrefs[0], visited, toVisit, base, budget);
    assert Enqueue(target, host, hrefs, visited, toVisit, base, budget)
        == Enqueue(target, host, hrefs[1..], visited, next, base, budget);
    if i == 0 {
      assert x !in next;
    } else {
      assert hrefs[1..][i - 1] == hrefs[i];
      EnqueueInOrder(target, host, hrefs[1..], visited, next, base, budget, i - 1, x);
      assert hrefs[..i][0] == hrefs[0] && hrefs[..i][1..] == hrefs[1..][..i - 1];
    }
  }

  /** A link discovered among the hrefs is discovered in the first href
      or in the rest, and one discovered in the rest is discovered. */
  lemma DiscoveredFirstOrRest(target: string -> Option<string>, hrefs: seq<string>)
    requires hrefs != []
    ensures forall x :: Discovered(target, hrefs, x) <==>
      target(hrefs[0]) == Some(x) || Discovered(target, hrefs[1..], x)
  {
    forall x | Discovered(target, hrefs[1..], x) ensures Discovered(target, hrefs, x) {
      var i :| 0 <= i < |hrefs[1..]| && target(hrefs[1..][i]) == Some(x);
      assert hrefs[i + 1] == hrefs[1..][i];
    }
    forall x | Discovered(target, hrefs, x) ensures target(hrefs[0]) == Some(x) || Discovered(target, hrefs[1..], x) {
      var i :| 0 <= i < |hrefs| && target(hrefs[i]) == Some(x);
      if i > 0 {
        assert hrefs[1..][i - 1] == hrefs[i];
      }
    }
  }

  /** The budget bound on visited plus pending pages: `max_urls`, but at
      least the one seed page. */
  function Cap(maxUrls: int): int {
    if maxUrls < 1 then 1 else maxUrls
  }

  predicate Distinct(s: seq<string>) {
    forall i, j | 0 <= i < j < |s| :: s[i] != s[j]
  }

  predicate StrictlySorted(s: seq<string>) {
    forall i, j | 0 <= i < j < |s| :: Below(s[i], s[j])
  }

  /** The start of a crawl: the exact host of the canonical start URL
      (pages reported must have it), its www-stripped form (links followed
      must have it) and the seed page, the root of the canonical URL. */
  datatype Start = Start(exact: string, base: string, root: string)

  /** The opening lines of `crawl_domain`. */
  function Begin(startInput: string, site: Site): (s: Start)
    ensures s.base == StripWww(s.exact)
    ensures s.exact == site.netloc(site.resolve(NormalizeDomain(startInput)))
    ensures s.root == site.scheme(site.resolve(NormalizeDomain(startInput))) + "://" + s.exact
  {
    var startUrl := site.resolve(NormalizeDomain(startInput));
    var exact := site.netloc(startUrl);
    Start(exact, StripWww(exact), site.scheme(startUrl) + "://" + exact)
  }

  /** The spider's state: visited and pending pages, the internal pages
      recorded so far, and the pages fetched, in fetch order. */
  datatype Frontier = Frontier(visited: set<string>, toVisit: set<string>, internal: set<string>, fetched: seq<string>)

  /** One pass of the loop of `crawl_domain` on the popped page `url`. */
  function Visit(site: Site, s: Start, f: Frontier, url: string, maxUrls: int): (g: Frontier)
    requires url in f.toVisit
    ensures g.visited == f.visited + {url}
    ensures g.fetched == if url in f.visited then f.fetched else f.fetched + [url]
    ensures f.toVisit - {url} <= g.toVisit
    ensures url in f.visited ==> g.toVisit == f.toVisit - {url}
    ensures g.internal == if url !in f.visited && site.netloc(url) == s.exact && Expanded(site, url)
      then f.internal + {url} else f.internal
  {
    var toVisit := f.toVisit - {url};
    if url in f.visited then f.(toVisit := toVisit)
    else
      var visited := f.visited + {url};
      var fetched := f.fetched + [url];
      var text := FetchText(site.get(url));
      if text.Some? && text.value != [] then
        var internal := if site.netloc(url) == s.exact then f.internal + {url} else f.internal;
        Frontier(visited, Enqueue(Target(site, url), site.netloc, site.anchors(text.value), visited, toVisit, s.base, maxUrls), internal, fetched)
      else Frontier(visited, toVisit, f.internal, fetched)
  }

  /** Visited and pending pages are disjoint, together within the budget,
      and the visited pages are exactly the pages fetched, each once. */
  ghost predicate Bounded(f: Frontier, maxUrls: int) {
    && f.visited !! f.toVisit
    && |f.visited| + |f.toVisit| <= Cap(maxUrls)
    && (forall u :: u in f.visited <==> u in f.fetched)
    && |f.fetched| == |f.visited|
    && Distinct(f.fetched)
    && (maxUrls < 0 ==> f.visited == {})
    && (maxUrls >= 0 ==> |f.visited| <= maxUrls)
  }

  /** The internal pages are the visited, expanded pages on the exact host. */
  ghost predicate Recorded(site: Site, s: Start, f: Frontier) {
    forall u :: u in f.internal <==> u in f.visited && site.netloc(u) == s.exact && Expanded(site, u)
  }

  /** Every page fetched or pending is the seed or was followed from a page
      fetched before it. */
  ghost predicate Traced(site: Site, s: Start, f: Frontier) {
    && (f.fetched == [] ==> f.toVisit == {s.root})
    && (f.fetched != [] ==> f.fetched[0] == s.root)
    && (forall i | 0 < i < |f.fetched| :: Reached(Link(site, s.base), f.fetched, i, f.fetched[i]))
    && (f.fetched != [] ==> forall x | x in f.toVisit :: Reached(Link(site, s.base), f.fetched, |f.fetched|, x))
  }

  /** While the budget is not exhausted, every link followed from a visited
      page is visited or pending. */
  ghost predicate Complete(site: Site, s: Start, f: Frontier, maxUrls: int) {
    |f.visited| + |f.toVisit| < maxUrls ==> Closed(site, s.base, f.visited, f.toVisit)
  }

  ghost predicate Invariant(site: Site, s: Start, f: Frontier, maxUrls: int) {
    Bounded(f, maxUrls) && Recorded(site, s, f) && Traced(site, s, f) && Complete(site, s, f, maxUrls)
  }

  /** What one pass does to the frontier: the page moves from pending to
      visited and fetched, it is recorded when it is internal and expanded,
      and the pages added to the pending set are unvisited links it
      follows, added while the budget allows and all of them when the
      budget still has room afterwards. */
  lemma VisitShape(site: Site, s: Start, f: Frontier, url: string, maxUrls: int) returns (g: Frontier)
    requires url in f.toVisit && url !in f.visited && f.visited !! f.toVisit
    ensures g == Visit(site, s, f, url, maxUrls)
    ensures g.visited == f.visited + {url}
    ensures g.fetched == f.fetched + [url]
    ensures g.internal == if site.netloc(url) == s.exact && Expanded(site, url) then f.internal + {url} else f.internal
    ensures f.toVisit - {url} <= g.toVisit
    ensures forall x | x in g.toVisit :: (x in f.toVisit && x != url) || (x !in g.visited && Follows(site, s.base, url, x))
    ensures |f.visited| + |f.toVisit| < maxUrls ==> |g.visited| + |g.toVisit| <= maxUrls
    ensures |f.visited| + |f.toVisit| >= maxUrls ==> g.toVisit == f.toVisit - {url}
    ensures |g.visited| + |g.toVisit| < maxUrls ==>
      forall x | Follows(site, s.base, url, x) :: x in g.visited || x in g.toVisit
  {
    g := Visit(site, s, f, url, maxUrls);
    assert |f.toVisit - {url}| == |f.toVisit| - 1;
    assert |f.visited + {url}| == |f.visited| + 1;
    if Expanded(site, url) {
      forall x | x in g.toVisit && !(x in f.toVisit && x != url) ensures x !in g.visited && Follows(site, s.base, url, x) {
        assert Discovered(Target(site, url), site.anchors(PageText(site, url)), x);
      }
    }
  }

  /** A pass visits one new page, keeps the frontier disjoint and within
      the budget, and fetches no page twice. */
  lemma BoundedStep(f: Frontier, g: Frontier, url: string, maxUrls: int, follows: string -> bool)
    requires Bounded(f, maxUrls) && url in f.toVisit && |f.visited| < maxUrls
    requires g.visited == f.visited + {url} && g.fetched == f.fetched + [url]
    requires f.toVisit - {url} <= g.toVisit
    requires forall x | x in g.toVisit :: (x in f.toVisit && x != url) || (x !in g.visited && follows(x))
    requires |f.visited| + |f.toVisit| < maxUrls ==> |g.visited| + |g.toVisit| <= maxUrls
    requires |f.visited| + |f.toVisit| >= maxUrls ==> g.toVisit == f.toVisit - {url}
    ensures Bounded(g, maxUrls)
  {
    assert url !in f.fetched;
    assert |f.toVisit - {url}| == |f.toVisit| - 1;
    assert |g.visited| == |f.visited| + 1;
    assert Distinct(g.fetched) by {
      forall i, j | 0 <= i < j < |g.fetched| ensures g.fetched[i] != g.fetched[j] {
        if j == |f.fetched| {
          assert g.fetched[i] == f.fetched[i];
        }
      }
    }
  }

  lemma RecordedStep(site: Site, s: Start, f: Frontier, g: Frontier, url: string)
    requires Recorded(site, s, f) && url !in f.visited
    requires g.visited == f.visited + {url}
    requires g.internal == if site.netloc(url) == s.exact && Expanded(site, url) then f.internal + {url} else f.internal
    ensures Recorded(site, s, g)
  {
  }

  lemma CompleteStep(site: Site, s: Start, f: Frontier, g: Frontier, url: string, maxUrls: int)
    requires Complete(site, s, f, maxUrls) && url in f.toVisit && url !in f.visited
    requires g.visited == f.visited + {url}
    requires f.toVisit - {url} <= g.toVisit
    requires |g.visited| + |g.toVisit| < maxUrls ==>
      forall x | Follows(site, s.base, url, x) :: x in g.visited || x in g.toVisit
    ensures Complete(site, s, g, maxUrls)
  {
    if |g.visited| + |g.toVisit| < maxUrls {
      assert |f.toVisit - {url}| == |f.toVisit| - 1;
      assert |g.visited| == |f.visited| + 1;
      SubsetNoLarger(f.toVisit - {url}, g.toVisit);
    }
  }

  /** One pass keeps the invariant and visits one more page. */
  lemma VisitKeeps(site: Site, s: Start, f: Frontier, url: string, maxUrls: int)
    requires Invariant(site, s, f, maxUrls) && url in f.toVisit && |f.visited| < maxUrls
    ensures Invariant(site, s, Visit(site, s, f, url, maxUrls), maxUrls)
    ensures |Visit(site, s, f, url, maxUrls).visited| == |f.visited| + 1
  {
    assert url !in f.visited;
    var g := VisitShape(site, s, f, url, maxUrls);
    BoundedStep(f, g, url, maxUrls, x => Follows(site, s.base, url, x));
    RecordedStep(site, s, f, g, url);
    TracedStep(site, s, f, g, url);
    CompleteStep(site, s, f, g, url, maxUrls);
  }

  /** Fetching a pending page and adding only links it follows keeps
      every page traced back to the seed. */
  lemma TracedStep(site: Site, s: Start, f: Frontier, g: Frontier, url: string)
    requires Traced(site, s, f) && url in f.toVisit
    requires g.fetched == f.fetched + [url]
    requires forall x | x in g.toVisit :: (x in f.toVisit && x != url) || (x !in g.visited && Follows(site, s.base, url, x))
    ensures Traced(site, s, g)
  {
    FetchedStep(Link(site, s.base), f.fetched, f.toVisit, url);
    PendingStep(Link(site, s.base), f.fetched, f.toVisit, g.toVisit, url);
  }

  lemma FetchedStep(edge: (string, string) -> bool, fetched: seq<string>, toVisit: set<string>, url: string)
    requires forall i | 0 < i < |fetched| :: Reached(edge, fetched, i, fetched[i])
    requires fetched != [] ==> forall x | x in toVisit :: Reached(edge, fetched, |fetched|, x)
    requires url in toVisit
    ensures forall i | 0 < i < |fetched + [url]| :: Reached(edge, fetched + [url], i, (fetched + [url])[i])
  {
    var g := fetched + [url];
    forall i | 0 < i < |g| ensures Reached(edge, g, i, g[i]) {
      var j: int;
      if i < |fetched| {
        assert Reached(edge, fetched, i, fetched[i]);
        j :| 0 <= j < i && edge(fetched[j], fetched[i]);
        assert g[i] == fetched[i];
      } else {
        assert Reached(edge, fetched, |fetched|, url);
        j :| 0 <= j < |fetched| && edge(fetched[j], url);
        assert g[i] == url;
      }
      assert g[j] == fetched[j];
    }
  }

  lemma PendingStep(edge: (string, string) -> bool, fetched: seq<string>, toVisit: set<string>, next: set<string>, url: string)
    requires fetched != [] ==> forall x | x in toVisit :: Reached(edge, fetched, |fetched|, x)
    requires fetched == [] ==> toVisit <= {url}
    requires forall x | x in next :: (x in toVisit && x != url) || edge(url, x)
    ensures forall x | x in next :: Reached(edge, fetched + [url], |fetched| + 1, x)
  {
    var g := fetched + [url];
    forall x | x in next ensures Reached(edge, g, |g|, x) {
      if x in toVisit && x != url && fetched != [] {
        var j :| 0 <= j < |fetched| && edge(fetched[j], x);
        assert g[j] == fetched[j];
      } else {
        assert g[|fetched|] == url;
      }
    }
  }

  /** A subset is no larger. */
  lemma SubsetNoLarger(a: set<string>, b: set<string>)
    requires a <= b
    ensures |a| <= |b|
  {
    assert b == a + (b - a);
  }

  /** The `while` loop of `crawl_domain`: it stops when nothing is pending
      or `max_urls` pages have been visited. */
  method Explore(site: Site, s: Start, maxUrls: int) returns (f: Frontier)
    ensures Invariant(site, s, f, maxUrls)
    ensures f.toVisit == {} || |f.visited| >= maxUrls
  {
    f := Frontier({}, {s.root}, {}, []);
    while f.toVisit != {} && |f.visited| < maxUrls
      invariant Invariant(site, s, f, maxUrls)
      decreases maxUrls - |f.visited|
    {
      var url :| url in f.toVisit;
      VisitKeeps(site, s, f, url, maxUrls);
      f := Visit(site, s, f, url, maxUrls);
    }
  }

  /** What the final frontier says about the pages fetched. */
  lemma Finished(site: Site, s: Start, f: Frontier, maxUrls: int)
    requires Invariant(site, s, f, maxUrls)
    requires f.toVisit == {} || |f.visited| >= maxUrls
    ensures maxUrls <= 0 ==> f.fetched == []
    ensures maxUrls > 0 ==> 0 < |f.fetched| <= maxUrls
    ensures |f.fetched| < maxUrls ==>
      forall p, x | p in f.fetched && Follows(site, s.base, p, x) :: x in f.fetched
  {
    if maxUrls <= 0 {
      assert f.visited == {};
    }
    if |f.fetched| < maxUrls {
      assert f.toVisit == {};
      assert f.fetched != [];
    }
  }

  /** `crawl_domain(start_input, max_urls)`. Besides the sorted internal
      URLs it returns the pages it fetched, in fetch order. The pop order of
      `to_visit` is arbitrary, so every choice is covered. */
  method CrawlDomain(startInput: string, maxUrls: int, site: Site) returns (result: seq<string>, fetched: seq<string>)
    ensures StrictlySorted(result)
    ensures forall u :: u in result <==>
      u in fetched && site.netloc(u) == Begin(startInput, site).exact && Expanded(site, u)
    ensures Distinct(fetched)
    ensures maxUrls <= 0 ==> fetched == []
    ensures maxUrls > 0 ==> 0 < |fetched| <= maxUrls
    ensures fetched != [] ==> fetched[0] == Begin(startInput, site).root
    ensures forall i | 0 < i < |fetched| :: Reached(Link(site, Begin(startInput, site).base), fetched, i, fetched[i])
    ensures |fetched| < maxUrls ==>
      forall p, x | p in fetched && Follows(site, Begin(startInput, site).base, p, x) :: x in fetched
  {
    var s := Begin(startInput, site);
    var f := Explore(site, s, maxUrls);
    Finished(site, s, f, maxUrls);
    fetched := f.fetched;
    result := SortUrls(f.internal);
  }

  /** `sorted(urls)` of a set of URLs. */
  method SortUrls(urls: set<string>) returns (r: seq<string>)
    ensures StrictlySorted(r)
    ensures forall u :: u in r <==> u in urls
  {
    r := [];
    var rest := urls;
    while rest != {}
      invariant StrictlySorted(r)
      invariant forall u :: u in urls <==> u in r || u in rest
      invariant forall u | u in rest :: u !in r
      decreases |rest|
    {
      var u :| u in rest;
      r := Insert(r, u);
      rest := rest - {u};
    }
  }

  /** `x` put in its place in a strictly sorted sequence not holding it. */
  function Insert(s: seq<string>, x: string): (r: seq<string>)
    requires StrictlySorted(s) && x !in s
    ensures StrictlySorted(r)
    ensures forall u :: u in r <==> u in s || u == x
    decreases |s|
  {
    if |s| == 0 then [x]
    else
      BelowTotal(x, s[0]);
      if Below(x, s[0]) then
        assert forall i | 0 <= i < |s| :: Below(x, s[i]) by {
          forall i | 0 < i < |s| ensures Below(x, s[i]) {
            BelowTransitive(x, s[0], s[i]);
          }
        }
        [x] + s
      else
        var rest := Insert(s[1..], x);
        assert forall u | u in rest :: Below(s[0], u);
        [s[0]] + rest
  }
}

=== FILE: strings.dfy ===
/** The parts of Python's `str` that the crawler relies on: `strip`, `rstrip`,
    `lower`, `startswith`/`endswith`, `in`, `partition`, `split()`,
    `splitlines()` and ordering by code point. */
module Strings {
  import opened Results

  /** Python's `str.isspace` for one character: the ASCII whitespace and
      separators plus the Unicode space characters. */
  predicate IsSpace(c: char) {
    || c == ' ' || c == '\t' || c == '\n' || c == '\r' || c == '\U{000B}' || c == '\U{000C}'
    || ('\U{001C}' <= c <= '\U{001F}')
    || c == '\U{0085}' || c == '\U{00A0}' || c == '\U{1680}'
    || ('\U{2000}' <= c <= '\U{200A}')
    || c == '\U{2028}' || c == '\U{2029}' || c == '\U{202F}' || c == '\U{205F}' || c == '\U{3000}'
  }

  /** The characters at which `str.splitlines` cuts a text. */
  predicate IsLineBreak(c: char) {
    || c == '\n' || c == '\r' || c == '\U{000B}' || c == '\U{000C}'
    || c == '\U{001C}' || c == '\U{001D}' || c == '\U{001E}'
    || c == '\U{0085}' || c == '\U{2028}' || c == '\U{2029}'
  }

  predicate StartsWith(s: string, prefix: string) {
    prefix <= s
  }

  predicate EndsWith(s: string, suffix: string) {
    |suffix| <= |s| && s[|s| - |suffix|..] == suffix
  }

  /** Python's `sub in s` for strings. */
  predicate Contains(s: string, sub: string) {
    exists i | 0 <= i <= |s| - |sub| :: OccursAt(s, sub, i)
  }

  predicate OccursAt(s: string, sub: string, i: int) {
    0 <= i <= |s| - |sub| && s[i..i + |sub|] == sub
  }

  /** Drops the longest prefix whose characters all satisfy `drop`. */
  function TrimStart(s: string, drop: char -> bool): (r: string)
    ensures |r| <= |s| && r == s[|s| - |r|..]
    ensures forall k | 0 <= k < |s| - |r| :: drop(s[k])
    ensures r == [] || !drop(r[0])
    decreases |s|
  {
    if |s| > 0 && drop(s[0]) then TrimStart(s[1..], drop) else s
  }

  /** Drops the longest suffix whose characters all satisfy `drop`
      (`rstrip` with a character set). */
  function TrimEnd(s: string, drop: char -> bool): (r: string)
    ensures r <= s
    ensures forall k | |r| <= k < |s| :: drop(s[k])
    ensures r == [] || !drop(r[|r| - 1])
    decreases |s|
  {
    if |s| > 0 && drop(s[|s| - 1]) then TrimEnd(s[..|s| - 1], drop) else s
  }

  /** Drops the longest prefix and the longest suffix whose characters
      all satisfy `drop`. */
  function Trim(s: string, drop: char -> bool): (r: string)
    ensures |r| <= |s|
    ensures r == [] || (!drop(r[0]) && !drop(r[|r| - 1]))
    ensures (forall k | 0 <= k < |s| :: drop(s[k])) ==> r == []
    ensures exists i :: TrimmedAt(s, r, i, drop)
  {
    var front := TrimStart(s, drop);
    var r := TrimEnd(front, drop);
    TrimmedWitness(s, front, r, drop);
    assert front != [] ==> !drop(s[|s| - |front|]);
    r
  }

  lemma TrimmedWitness(s: string, front: string, r: string, drop: char -> bool)
    requires |front| <= |s| && front == s[|s| - |front|..]
    requires forall k | 0 <= k < |s| - |front| :: drop(s[k])
    requires r <= front && forall k | |r| <= k < |front| :: drop(front[k])
    ensures TrimmedAt(s, r, |s| - |front|, drop)
  {
    var i := |s| - |front|;
    assert r == s[i..i + |r|];
    assert forall k | i + |r| <= k < |s| :: s[k] == front[k - i];
  }

  /** `r` stands at position `i` of `s`, and every character of `s`
      around it satisfies `drop`. */
  predicate TrimmedAt(s: string, r: string, i: int, drop: char -> bool) {
    && 0 <= i <= |s| - |r|
    && r == s[i..i + |r|]
    && (forall k | 0 <= k < i :: drop(s[k]))
    && (forall k | i + |r| <= k < |s| :: drop(s[k]))
  }

  /** Python's `str.strip()`: whitespace removed at both ends. */
  function Strip(s: string): (r: string)
    ensures |r| <= |s|
    ensures r == [] || (!IsSpace(r[0]) && !IsSpace(r[|r| - 1]))
    ensures (forall k | 0 <= k < |s| :: IsSpace(s[k])) ==> r == []
    ensures exists i :: TrimmedAt(s, r, i, IsSpace)
  {
    Trim(s, IsSpace)
  }

  /** Python's `str.rstrip("/")`. */
  function TrimSlashes(s: string): (r: string)
    ensures r <= s
    ensures r == [] || r[|r| - 1] != '/'
    ensures forall k | |r| <= k < |s| :: s[k] == '/'
  {
    TrimEnd(s, c => c == '/')
  }

  /** A prefix that does not end in '/' survives the trimming. */
  lemma TrimSlashesKeeps(s: string, p: string)
    requires p <= s && p != [] && p[|p| - 1] != '/'
    ensures p <= TrimSlashes(s)
  {
    var r := TrimSlashes(s);
    assert s[|p| - 1] == p[|p| - 1];
    assert |p| <= |r|;
    assert r[..|p|] == s[..|p|];
  }

  /** Lower-casing of one character; only the ASCII letters change. */
  function LowerChar(c: char): char {
    if 'A' <= c <= 'Z' then (c as int + 32) as char else c
  }

  /** `str.lower()`, on ASCII letters. */
  function Lower(s: string): (r: string)
    ensures |r| == |s|
    ensures forall k | 0 <= k < |s| :: r[k] == LowerChar(s[k])
    ensures IsLower(r)
  {
    seq(|s|, k requires 0 <= k < |s| => LowerChar(s[k]))
  }

  predicate IsLower(s: string) {
    forall k | 0 <= k < |s| :: !('A' <= s[k] <= 'Z')
  }

  /** The first position of `c` in `s`. */
  function IndexOf(s: string, c: char): (r: Option<nat>)
    ensures r.None? <==> c !in s
    ensures r.Some? ==> r.value < |s| && s[r.value] == c && c !in s[..r.value]
    decreases |s|
  {
    if |s| == 0 then None
    else if s[0] == c then Some(0)
    else match IndexOf(s[1..], c)
      case None => None
      case Some(i) =>
        assert s[..i + 1] == [s[0]] + s[1..][..i];
        Some(i + 1)
  }

  /** The text after the first `c` in `s`, if there is one: the element
      at index 1 of `s.split(c, 1)`. */
  function AfterFirst(s: string, c: char): (r: Option<string>)
    ensures r.None? <==> c !in s
    ensures r.Some? ==> exists i | 0 <= i < |s| :: s[i] == c && c !in s[..i] && r.value == s[i + 1..]
  {
    match IndexOf(s, c)
    case None => None
    case Some(i) => Some(s[i + 1..])
  }

  /** The part of `s` before its first `c`, or all of `s` when there is
      none: the head of `s.partition(c)`. */
  function BeforeFirst(s: string, c: char): (r: string)
    ensures r <= s && c !in r
    ensures |r| < |s| ==> s[|r|] == c
  {
    match IndexOf(s, c)
    case None => s
    case Some(i) => s[..i]
  }

  /** The first whitespace-delimited token, the element at index 0 of
      `s.split()`; `None` where that list is empty. */
  function FirstToken(s: string): (r: Option<string>)
    ensures r.None? <==> forall k | 0 <= k < |s| :: IsSpace(s[k])
    ensures r.Some? ==> r.value != [] && forall k | 0 <= k < |r.value| :: !IsSpace(r.value[k])
    ensures r.Some? ==> exists i :: TokenAt(s, r.value, i)
  {
    var rest := TrimStart(s, IsSpace);
    if rest == [] then None
    else
      var t := TakeWhileNot(rest, IsSpace);
      var i := |s| - |rest|;
      assert t == s[i..i + |t|];
      assert i + |t| < |s| ==> s[i + |t|] == rest[|t|];
      assert TokenAt(s, t, i);
      Some(t)
  }

  /** `t` stands at position `i` of `s`, after whitespace only, and ends
      at the end of `s` or before a whitespace character. */
  predicate TokenAt(s: string, t: string, i: int) {
    && 0 <= i <= |s| - |t|
    && t == s[i..i + |t|]
    && (forall k | 0 <= k < i :: IsSpace(s[k]))
    && (i + |t| == |s| || IsSpace(s[i + |t|]))
  }

  /** The longest prefix containing no character satisfying `stop`. */
  function TakeWhileNot(s: string, stop: char -> bool): (r: string)
    ensures r <= s
    ensures forall k | 0 <= k < |r| :: !stop(r[k])
    ensures |r| < |s| ==> stop(s[|r|])
    decreases |s|
  {
    if |s| == 0 || stop(s[0]) then [] else [s[0]] + TakeWhileNot(s[1..], stop)
  }

  /** The position of the first line break in `s`, or `|s|`. */
  function FirstBreak(s: string): (i: nat)
    ensures i <= |s|
    ensures forall k | 0 <= k < i :: !IsLineBreak(s[k])
    ensures i < |s| ==> IsLineBreak(s[i])
    decreases |s|
  {
    if |s| == 0 || IsLineBreak(s[0]) then 0 else 1 + FirstBreak(s[1..])
  }

  /** Python's `str.splitlines()`: "\r\n" is one break, a final break
      does not open an empty last line, and the empty text has no lines. */
  function SplitLines(s: string): (lines: seq<string>)
    ensures forall i, k | 0 <= i < |lines| && 0 <= k < |lines[i]| :: !IsLineBreak(lines[i][k])
    ensures s == [] <==> lines == []
    decreases |s|
  {
    if s == [] then []
    else
      var i := FirstBreak(s);
      if i == |s| then [s]
      else
        var next := if s[i] == '\r' && i + 1 < |s| && s[i + 1] == '\n' then i + 2 else i + 1;
        [s[..i]] + SplitLines(s[next..])
  }

  /** A line separator of `str.splitlines()`: "\r\n" or one break. */
  predicate IsSeparator(sep: string) {
    sep == "\r\n" || (|sep| == 1 && IsLineBreak(sep[0]))
  }

  predicate NoBreak(line: string) {
    forall k | 0 <= k < |line| :: !IsLineBreak(line[k])
  }

  /** `s` is `lines[0] + seps[0] + lines[1] + seps[1] + ...`, where no
      line holds a break, every separator is one, except that the last
      line may instead end the text when it is not empty, and a lone
      "\r" is never followed by an empty line ended by "\n" ("\r\n"
      is one break). */
  predicate SplitsAs(s: string, lines: seq<string>, seps: seq<string>)
    decreases |lines|
  {
    && |seps| == |lines|
    && if lines == [] then s == []
       else
         var n := |lines[0]| + |seps[0]|;
         && NoBreak(lines[0])
         && (IsSeparator(seps[0]) || (|lines| == 1 && seps[0] == [] && lines[0] != []))
         && (|lines| > 1 && seps[0] == "\r" ==> !(lines[1] == [] && seps[1] == "\n"))
         && n <= |s| && s[..n] == lines[0] + seps[0]
         && SplitsAs(s[n..], lines[1..], seps[1..])
  }

  /** The separator that ends each line of `SplitLines(s)`, "" after a
      last line that ends the text. */
  ghost function Separators(s: string): seq<string>
    decreases |s|
  {
    if s == [] then []
    else
      var i := FirstBreak(s);
      if i == |s| then [[]]
      else
        var next := if s[i] == '\r' && i + 1 < |s| && s[i + 1] == '\n' then i + 2 else i + 1;
        [s[i..next]] + Separators(s[next..])
  }

  /** The lines of `SplitLines`, with their separators, rebuild the text. */
  lemma {:induction false} SplitLinesRebuilds(s: string)
    ensures SplitsAs(s, SplitLines(s), Separators(s))
    decreases |s|
  {
    if s == [] {
      assert SplitLines(s) == [] && Separators(s) == [];
    } else if FirstBreak(s) == |s| {
      assert SplitLines(s) == [s] && Separators(s) == [[]];
      assert SplitsAs(s[|s|..], [s][1..], [[]][1..]);
    } else {
      var i := FirstBreak(s);
      var next := if s[i] == '\r' && i + 1 < |s| && s[i + 1] == '\n' then i + 2 else i + 1;
      SplitStep(s, i, next);
      SplitLinesRebuilds(s[next..]);
      SplitsAsCons(s, SplitLines(s), Separators(s), s[..i], s[i..next], next, s[next..],
                   SplitLines(s[next..]), Separators(s[next..]));
    }
  }

  /** One step of `SplitLines` and `Separators` at the first break. */
  lemma SplitStep(s: string, i: nat, next: nat)
    requires i < |s| && i == FirstBreak(s)
    requires next == if s[i] == '\r' && i + 1 < |s| && s[i + 1] == '\n' then i + 2 else i + 1
    ensures SplitLines(s) == [s[..i]] + SplitLines(s[next..])
    ensures Separators(s) == [s[i..next]] + Separators(s[next..])
    ensures NoBreak(s[..i]) && IsSeparator(s[i..next])
    ensures s[i..next] == "\r" ==> next == |s| || s[next] != '\n'
    ensures s[..next] == s[..i] + s[i..next]
  {
    BreakAt(s, i, next);
  }

  /** The break at `i`, one or two characters long, is a separator. */
  lemma BreakAt(s: string, i: nat, next: nat)
    requires i < |s| && i == FirstBreak(s)
    requires next == if s[i] == '\r' && i + 1 < |s| && s[i + 1] == '\n' then i + 2 else i + 1
    ensures NoBreak(s[..i]) && IsSeparator(s[i..next])
    ensures s[i..next] == "\r" ==> next == |s| || s[next] != '\n'
    ensures s[..next] == s[..i] + s[i..next]
  {
    if next == i + 2 {
      assert s[i..next] == "\r\n";
    } else {
      assert s[i..next] == [s[i]];
    }
  }

  /** A line and its separator put in front of a split extend it. */
  lemma SplitsAsCons(s: string, lines: seq<string>, seps: seq<string>, l: string, sep: string,
                     n: nat, rest: string, tl: seq<string>, ts: seq<string>)
    requires lines == [l] + tl && seps == [sep] + ts
    requires NoBreak(l) && IsSeparator(sep)
    requires n == |l| + |sep| <= |s| && s[..n] == l + sep && s[n..] == rest
    requires SplitsAs(rest, tl, ts)
    requires sep == "\r" ==> rest == [] || rest[0] != '\n'
    ensures SplitsAs(s, lines, seps)
  {
    assert lines[1..] == tl && seps[1..] == ts;
    if sep == "\r" && tl != [] && tl[0] == [] && ts[0] == "\n" {
      SplitsAsHead(rest, tl, ts);
    }
  }

  /** A text split with an empty first line starts with its separator. */
  lemma SplitsAsHead(s: string, lines: seq<string>, seps: seq<string>)
    requires SplitsAs(s, lines, seps) && lines != [] && lines[0] == []
    ensures |s| >= |seps[0]| && s[..|seps[0]|] == seps[0]
  {
  }

  /** The lines and separators that rebuild a text are those of
      `SplitLines`: the split is unique. */
  lemma {:induction false} SplitLinesUnique(s: string, lines: seq<string>, seps: seq<string>)
    requires SplitsAs(s, lines, seps)
    ensures lines == SplitLines(s)
    decreases |lines|
  {
    if lines != [] {
      var l, sep := lines[0], seps[0];
      var n := |l| + |sep|;
      if sep == [] {
        assert s[n..] == [] && s == s[..n];
        FirstBreakIsEnd(s);
        assert SplitLines(s) == [s];
      } else {
        if sep == "\r" && n < |s| {
          CrStaysAlone(s[n..], lines[1..], seps[1..]);
          assert s[n] == s[n..][0];
        }
        BreakOfLine(s, l, sep, n);
        SplitLinesUnique(s[n..], lines[1..], seps[1..]);
        SplitStep(s, |l|, n);
      }
    }
  }

  /** A line followed by a separator starts the text: the first break
      of the text ends the line, and the separator is as long as the
      break `SplitLines` takes there. */
  lemma BreakOfLine(s: string, l: string, sep: string, n: nat)
    requires NoBreak(l) && IsSeparator(sep)
    requires n == |l| + |sep| <= |s| && s[..n] == l + sep
    requires sep == "\r" ==> n == |s| || s[n] != '\n'
    ensures FirstBreak(s) == |l| < |s| && s[..|l|] == l
    ensures n == if s[|l|] == '\r' && |l| + 1 < |s| && s[|l| + 1] == '\n' then |l| + 2 else |l| + 1
  {
    assert forall k | 0 <= k < n :: s[k] == (l + sep)[k];
    FirstBreakAt(s, |l|);
    assert s[..|l|] == (l + sep)[..|l|];
  }

  /** What follows a lone "\r" separator does not start with '\n',
      given the rule of `SplitsAs` on the next line. */
  lemma CrStaysAlone(rest: string, lines: seq<string>, seps: seq<string>)
    requires SplitsAs(rest, lines, seps)
    requires lines != [] ==> !(lines[0] == [] && seps[0] == "\n")
    ensures rest != [] ==> rest[0] != '\n'
  {
    if rest != [] {
      assert lines != [];
      if lines[0] != [] {
        assert rest[0] == lines[0][0];
      } else {
        assert seps[0] != [];
        assert rest[0] == seps[0][0];
      }
    }
  }

  lemma FirstBreakAt(s: string, i: int)
    requires 0 <= i < |s| && IsLineBreak(s[i])
    requires forall k | 0 <= k < i :: !IsLineBreak(s[k])
    ensures FirstBreak(s) == i
  {
  }

  lemma FirstBreakIsEnd(s: string)
    requires forall k | 0 <= k < |s| :: !IsLineBreak(s[k])
    ensures FirstBreak(s) == |s|
  {
  }

  /** Strict lexicographic order by code point, as Python compares `str`. */
  predicate Below(a: string, b: string)
    decreases |a|
  {
    if |a| == 0 then |b| > 0
    else |b| > 0 && (a[0] < b[0] || (a[0] == b[0] && Below(a[1..], b[1..])))
  }

  lemma {:induction false} BelowTransitive(a: string, b: string, c: string)
    requires Below(a, b) && Below(b, c)
    ensures Below(a, c)
    decreases |a|
  {
    if |a| > 0 && a[0] == b[0] && b[0] == c[0] {
      BelowTransitive(a[1..], b[1..], c[1..]);
    }
  }

  lemma {:induction false} BelowTotal(a: string, b: string)
    ensures a == b || Below(a, b) || Below(b, a)
    decreases |a|
  {
    if |a| > 0 && |b| > 0 && a[0] == b[0] {
      BelowTotal(a[1..], b[1..]);
      if a[1..] == b[1..] {
        assert a == [a[0]] + a[1..] && b == [b[0]] + b[1..];
      }
    }
  }
}
